=== FILE: README.md ===
# Route planning and button colours of the expo-gaode-map example app

This Dafny project models the computational core of the AMap (Gaode) example
app:

- the route helpers of `utils/routeUtils.ts`:
  - decoding a `lng,lat;lng,lat` polyline
  - down-sampling a path by a fixed stride
  - the cyclic route palette
  - the distance and duration labels
  - the bounding box of a path
- the route planning hook `hooks/useRoutePlanning.ts`:
  - five driving strategies with the clearly different alternatives kept
  - walking, cycling and transit plans
  - assembling a transit route from its segments
  - the hook's own state: the calculating flag, the routes on show and the selected kind of route
- the colour logic of `components/UnifiedButton.tsx`:
  - the background colour
  - `toRgb` for `#rgb`, `#rrggbb`, `rgb(…)` and `rgba(…)`
  - `clamp255`
  - the dark or light label chosen from the estimated luminance

Files:

| file | module | contents |
|---|---|---|
| `wrappers.dfy` | `Wrappers` | `Option` |
| `js_number.dfy` | `JsNumber` | JavaScript numbers: finite value or NaN; `Math.round`; `Math.floor(x / 60)`; ToInt32; `Math.abs(a - b) < limit` |
| `js_text.dfy` | `JsText` | `split`/`join` with one-character separators; `trim`; `${n}` for integers and a reader for it; `indexOf` |
| `route_utils.dfy` | `RouteUtils` | `utils/routeUtils.ts` |
| `route_planning.dfy` | `RoutePlanning` | `hooks/useRoutePlanning.ts` |
| `unified_button.dfy` | `UnifiedButton` | the colour logic of `components/UnifiedButton.tsx` |

Where the source works by changing state step by step, the model does too:

- `simplifyPath`, the driving, cycling and transit loops and `processTransitRoute` are methods with loops.
- Each method is proved equal to a specification function.
- The properties are proved about those functions.
- The hook is a class whose fields are its three pieces of React state.

Everything outside the repository becomes a function parameter:

- JavaScript's `Number`, `parseFloat` and decimal `parseInt`
- the native polyline decoder `ExpoGaodeMapModule.parsePolyline`
- the routing service's answers

## Model

| member | source | states |
|---|---|---|
| JsNumber.Round | components/UnifiedButton.tsx:89 | `Math.round(x)` is the integer within half a unit of `x`, halves going up |
| JsNumber.WholeMinutes | utils/routeUtils.ts:77 | `Math.floor(seconds / 60)` is the whole number of minutes: `m·60 <= s < (m+1)·60` |
| JsNumber.ToInt32 | components/UnifiedButton.tsx:76 | the 32-bit conversion of `>>` and `&` is congruent modulo 2^32, in the signed range, and the identity on that range |
| JsNumber.CloserThan | hooks/useRoutePlanning.ts:138-139 | `Math.abs(a - b) < limit` is false when either side is NaN; when true, the difference lies strictly within the limit both ways; equal numbers are close exactly for a positive limit; conversely two finite numbers whose difference lies strictly within the limit both ways are close |
| JsText.Split | components/UnifiedButton.tsx:80 | `split(sep)` gives one piece more than separators, none containing the separator |
| JsText.JoinSplit | utils/routeUtils.ts:12 | joining the pieces of a split restores the string, so `split(';')` here and `split(',')` at components/UnifiedButton.tsx:80 lose no character |
| JsText.SplitJoin | utils/routeUtils.ts:12 | splitting the join of separator-free pieces restores the pieces |
| JsText.TrimStart | components/UnifiedButton.tsx:69 | the result is a suffix that does not start with white space |
| JsText.TrimStartRemovesWhiteSpace | components/UnifiedButton.tsx:69 | what `trim` removes at the front is white space only |
| JsText.TrimEnd | components/UnifiedButton.tsx:69 | the result is a prefix that does not end with white space |
| JsText.TrimEndRemovesWhiteSpace | components/UnifiedButton.tsx:69 | what `trim` removes at the back is white space only |
| JsText.Trim | components/UnifiedButton.tsx:69 | `trim()` gives a prefix of the text left after the leading white space, neither starting nor ending with white space, and empty for blank text |
| JsText.TrimDropsOnlyWhiteSpace | components/UnifiedButton.tsx:69 | what `trim()` removes before and after its result is white space only |
| JsText.TrimEndAfter | components/UnifiedButton.tsx:69 | trailing white space after a non-space is removed without touching what precedes it |
| JsText.NatText | utils/routeUtils.ts:79 | `${n}` of a natural number is a non-empty string of digits |
| JsText.NatTextNoLeadingZero | utils/routeUtils.ts:79 | `${n}` has no leading zero: one digit exactly below ten, and otherwise a nonzero first digit |
| JsText.IntText | utils/routeUtils.ts:79 | `${i}` of an integer is non-empty, starts with `-` exactly for a negative number, and is digits otherwise, with no leading zero after the sign |
| JsText.ReadIntText | utils/routeUtils.ts:79 | the decimal text of an integer reads back as that integer |
| JsText.NatTextInjective | hooks/useRoutePlanning.ts:152 | distinct numbers print differently |
| RouteUtils.ParsePolyline | utils/routeUtils.ts:8-21 | undefined or empty text gives no points; otherwise at most one point per `;`-separated segment |
| RouteUtils.SegmentPoint | utils/routeUtils.ts:13-16 | a segment without a comma gives no point; a point takes its longitude from the first field and its latitude from the second, both finite; conversely two finite leading fields always give a point |
| RouteUtils.SegmentPoints | utils/routeUtils.ts:12-16 | never more points than segments |
| RouteUtils.SegmentPointsAppend | utils/routeUtils.ts:13-16 | the output keeps segment order: decoding distributes over concatenation |
| RouteUtils.SegmentPointsMember | utils/routeUtils.ts:13-16 | a point is in the output iff some segment decodes to it (the NaN filter drops the others) |
| RouteUtils.SegmentPointsKeepsAll | utils/routeUtils.ts:16 | no segment is dropped iff every segment decodes |
| RouteUtils.LongitudeFirst | utils/routeUtils.ts:14-15 | a segment `lng,lat` decodes to latitude `lat` and longitude `lng` |
| RouteUtils.PolylineOfSegments | utils/routeUtils.ts:12-16 | a `;`-joined list of segments decodes segment by segment |
| RouteUtils.QuotientIsFloor | utils/routeUtils.ts:32 | the stride's quotient is `Math.floor(a / d)` |
| RouteUtils.Stride | utils/routeUtils.ts:32 | the stride is at least 1, also for `maxPoints` 0 (where JavaScript divides by zero and no interior point is taken) |
| RouteUtils.StridePrefixExtend | utils/routeUtils.ts:37-39 | one loop iteration keeps the loop's invariant (first point, then the points at `step, 2·step, …`) |
| RouteUtils.StridedSample | utils/routeUtils.ts:30-43 | the sample has `InteriorCount + 2` points: the two ends and one per stride multiple below the last index |
| RouteUtils.StridedSampleOfPrefix | utils/routeUtils.ts:37-41 | the loop's list at exit, plus the last point, is the strided sample |
| RouteUtils.Sampled | utils/routeUtils.ts:26-44 | the simplified path of a non-empty path starts with its first point and ends with its last; an empty path stays empty |
| RouteUtils.SimplifyPath | utils/routeUtils.ts:26-44 | the method returns the path unchanged when it has at most `maxPoints` points, else the strided sample |
| RouteUtils.SampledIsOrderedSubsequence | utils/routeUtils.ts:30-43 | a reduced path keeps the first and the last point and is an ordered subsequence of the input |
| RouteUtils.SampledInteriorIsStride | utils/routeUtils.ts:32-39 | its interior points are exactly those at the multiples of the stride below the last index |
| RouteUtils.SampledNoReduction | utils/routeUtils.ts:30-39 | a path between `maxPoints` and `2·maxPoints` points gets stride 1 and is returned whole |
| RouteUtils.SampledExceedsMax | utils/routeUtils.ts:30-43 | `simplifyPath(points, 150)` on 299 points returns 299 points, more than 150 |
| RouteUtils.BoundedStride | utils/routeUtils.ts:32 | the corrected stride is at least 1 |
| RouteUtils.BoundedSampleWithinMax | utils/routeUtils.ts:26-44 | with the corrected stride the result has at most `maxPoints` points (2 when fewer are asked for) and keeps both ends |
| RouteUtils.RouteColor | utils/routeUtils.ts:49-61 | a non-negative index selects a palette colour |
| RouteUtils.RouteColorPeriodic | utils/routeUtils.ts:60 | colours repeat every 8 routes |
| RouteUtils.RouteColorDistinctWithinPeriod | utils/routeUtils.ts:50-60 | 8 consecutive routes get 8 different colours |
| RouteUtils.RouteColorNegative | utils/routeUtils.ts:60 | a negative index has a colour only when it is a multiple of 8 (truncating `%`), and then it is the first colour |
| RouteUtils.FormatDistance | utils/routeUtils.ts:66-71 | kilometres exactly from 1000 m on, `meters / 1000 >= 1`; the raw metres below that and for NaN |
| RouteUtils.FormatDuration | utils/routeUtils.ts:76-84 | `${m}分钟` below an hour; `${h}小时${r}分钟` with `r < 60` and `h·60 + r = m` from an hour on; NaN gives `NaN小时NaN分钟` |
| RouteUtils.ReadsBackMinutes | utils/routeUtils.ts:78-79 | a minutes-only label reads back as its minutes |
| RouteUtils.ReadsBackHours | utils/routeUtils.ts:81-83 | an hours-and-minutes label reads back as `h·60 + r` minutes |
| RouteUtils.ReadsBackNaN | utils/routeUtils.ts:76-83 | the NaN label reads as no number |
| RouteUtils.FormatDurationReadsBack | utils/routeUtils.ts:76-84 | every duration label denotes exactly `Math.floor(seconds / 60)` minutes |
| RouteUtils.MaxOf | utils/routeUtils.ts:101 | `Math.max(...xs)` is an element bounding all elements |
| RouteUtils.MinOf | utils/routeUtils.ts:102 | `Math.min(...xs)` is an element bounded by all elements |
| RouteUtils.Latitudes | utils/routeUtils.ts:92 | `path.map(p => p.latitude)` |
| RouteUtils.Longitudes | utils/routeUtils.ts:93 | `path.map(p => p.longitude)` |
| RouteUtils.RouteBounds | utils/routeUtils.ts:89-106 | null iff the path is empty; else a box enclosing every point with each side touching one, and its centre |
| RouteUtils.RouteBoundsSmallest | utils/routeUtils.ts:100-105 | any box enclosing the path contains the computed one |
| RoutePlanning.FlatMapAppend | hooks/useRoutePlanning.ts:122-124 | the step polylines are concatenated in step order |
| RoutePlanning.FlatMapMember | hooks/useRoutePlanning.ts:122-124 | a point is on the route iff some step's polyline holds it |
| RoutePlanning.OrElse | hooks/useRoutePlanning.ts:119-121 | `text \|\| fallback` is the text whenever it is non-empty and the fallback otherwise; it is never empty when the fallback is not |
| RoutePlanning.PlanName | hooks/useRoutePlanning.ts:186 | the name is `推荐` exactly for the first plan |
| RoutePlanning.PlanNamesDistinct | hooks/useRoutePlanning.ts:186 | different plans get different names (`推荐`, `方案2`, `方案3`, …) |
| RoutePlanning.DrivingRoute | hooks/useRoutePlanning.ts:116-128 | a driving route carries the given id, name, strategy and the colour of its id, the parsed distance, the parsed `cost.duration \|\| '0'`, the polyline of its steps, and tolls and traffic lights `x \|\| '0'` (never empty); no transit fields |
| RoutePlanning.IsNear | hooks/useRoutePlanning.ts:137-140 | near exactly when the distances differ by less than 500 and the durations by less than 150 (so only for finite numbers); a route with finite numbers is near its own distance and duration |
| RoutePlanning.NearAny | hooks/useRoutePlanning.ts:137-142 | nothing is near when there is no route yet or the alternative's distance or duration is NaN, so such an alternative is kept while fewer than ten routes exist |
| RoutePlanning.DrivingRoutes | hooks/useRoutePlanning.ts:94-166 | at most 14 driving routes, route `j` with id `j` and colour `j` |
| RoutePlanning.CalculateDrivingRoutes | hooks/useRoutePlanning.ts:94-166 | the loops over strategies and alternatives return the routes of the specification `DrivingRoutes` |
| RoutePlanning.PrimaryKeeps | hooks/useRoutePlanning.ts:113-128 | pushing a strategy's first path keeps the numbering and the separation of alternatives |
| RoutePlanning.ConsiderAlternateKeeps | hooks/useRoutePlanning.ts:131-157 | considering one alternative only appends, keeps numbering and separation, and never grows the list past 10 |
| RoutePlanning.AlternatesUpToKeeps | hooks/useRoutePlanning.ts:131-157 | the same for the whole loop over alternatives |
| RoutePlanning.AfterStrategyKeeps | hooks/useRoutePlanning.ts:106-161 | one strategy only appends, and adds at most one route once 10 exist |
| RoutePlanning.DrivingAfterKeeps | hooks/useRoutePlanning.ts:106-162 | after `k` strategies the routes are numbered and separated, and there are at most `9 + k` of them |
| RoutePlanning.DrivingAfterGrows | hooks/useRoutePlanning.ts:106-162 | later strategies never remove or change earlier routes |
| RoutePlanning.DrivingRoutesProperties | hooks/useRoutePlanning.ts:94-166 | route `j` has id `j` and colour `generateRouteColor(j)`; at most 14 routes; each alternative is among the first ten and not within 500 m and 150 s of any earlier route |
| RoutePlanning.AlternateNameNotStrategyName | hooks/useRoutePlanning.ts:95-101 | an alternative's name `${name}备选${i}` never equals a strategy's own name |
| RoutePlanning.EveryAnsweringStrategyShown | hooks/useRoutePlanning.ts:113-128 | every strategy whose request found a path has its first path among the driving routes |
| RoutePlanning.FailedStrategyAddsNothing | hooks/useRoutePlanning.ts:107-113 | a strategy whose request threw or found no path adds no route |
| RoutePlanning.WalkingRoutes | hooks/useRoutePlanning.ts:169-189 | a failed request propagates; no paths give no route; else one route per path with id `i`, plan name `i`, colour `i`, the parsed distance, the polyline of its steps and duration `cost.duration` or 0; tolls, traffic lights, fare, walking distance, strategy and segments are absent |
| RoutePlanning.CyclingRoutes | hooks/useRoutePlanning.ts:192-231 | a failed request or no paths give no route; else one route per path with id `i`, plan name `i`, colour `i`, the parsed distance, the polyline of its steps and duration `cost.duration \|\| duration \|\| 0`; tolls, traffic lights, fare, walking distance, strategy and segments are absent |
| RoutePlanning.CalculateBicyclingRoutes | hooks/useRoutePlanning.ts:192-231 | the `forEach` loop returns the routes of the specification `CyclingRoutes`; a failure gives none |
| RoutePlanning.WalkingAndCyclingAgree | hooks/useRoutePlanning.ts:182 | when every path states `cost.duration`, walking and cycling build the same routes from the same answer |
| RoutePlanning.CyclingRoutesNumbered | hooks/useRoutePlanning.ts:208-224 | one cycling route per path, numbered from 0 with the matching colours and pairwise different names |
| RoutePlanning.SegmentsPointsSnoc | hooks/useRoutePlanning.ts:279-294 | one more segment appends its points |
| RoutePlanning.PushLinePoints | hooks/useRoutePlanning.ts:281-293 | the `forEach` over steps or bus lines appends their decoded points in order |
| RoutePlanning.CollectSegmentPoints | hooks/useRoutePlanning.ts:279-294 | the segment loop collects, per segment, its walking, bus and railway points in that order |
| RoutePlanning.TransitRouteOf | hooks/useRoutePlanning.ts:274-307 | null exactly for a null plan; else the route keeps the given id and name, its colour and the plan's segments; parses distance and duration (`\|\| '0'`); transit fee defaults to `"0"` and walking distance to 0; its polyline is the walking, bus and railway points of each segment in turn |
| RoutePlanning.ProcessTransitRoute | hooks/useRoutePlanning.ts:274-307 | the method returns the route of the specification `TransitRouteOf` |
| RoutePlanning.PresentSnoc | hooks/useRoutePlanning.ts:258-264 | one more plan appends its route, if any |
| RoutePlanning.TransitRoutes | hooks/useRoutePlanning.ts:234-271 | one route per non-null plan (none for a failed request) with strictly increasing ids |
| RoutePlanning.CalculateTransitRoutes | hooks/useRoutePlanning.ts:234-271 | the `forEach` loop returns the non-null plan routes in plan order; a failure or no plans give none |
| RoutePlanning.PresentCount | hooks/useRoutePlanning.ts:258-264 | one route per non-null entry |
| RoutePlanning.PresentFromPlans | hooks/useRoutePlanning.ts:258-264 | each kept route is the entry at the index its id names |
| RoutePlanning.PresentOrdered | hooks/useRoutePlanning.ts:258-264 | the kept routes' ids strictly increase |
| RoutePlanning.SomeCountOfPlans | hooks/useRoutePlanning.ts:275 | a plan gives a route exactly when it is non-null |
| RoutePlanning.TransitRoutesProperties | hooks/useRoutePlanning.ts:234-271 | one transit route per non-null plan, each the route of the plan its id names with that plan's name, ids strictly increasing |
| RoutePlanning.PlannedRoutes | hooks/useRoutePlanning.ts:44-60 | only the walking request can make the `switch` throw |
| RoutePlanning.RouteResult | hooks/useRoutePlanning.ts:62-73 | a result is returned iff the planned routes exist and are non-empty; it is then exactly the planned list and never empty |
| RoutePlanning.RoutePlanner.constructor | hooks/useRoutePlanning.ts:23-26 | not calculating, no routes, driving selected |
| RoutePlanning.RoutePlanner.SetRouteType | hooks/useRoutePlanning.ts:87 | selects the kind of route and changes nothing else |
| RoutePlanning.RoutePlanner.CalculateRoute | hooks/useRoutePlanning.ts:28-77 | without an API: null and nothing changes; else the flag is cleared at the end, the result is `RouteResult`, and the routes on show are replaced exactly when a result is returned |
| RoutePlanning.RoutePlanner.ClearRoutes | hooks/useRoutePlanning.ts:79-81 | empties the routes on show and changes nothing else |
| RoutePlanning.ResultIsSelectedKind | hooks/useRoutePlanning.ts:44-69 | a returned result holds at least one route and is the driving, walking, cycling or transit list of the selected kind |
| UnifiedButton.HexValue | components/UnifiedButton.tsx:75 | the value of `k` hexadecimal digits is below `16^k` |
| UnifiedButton.HexRun | components/UnifiedButton.tsx:75 | `parseInt` reads the longest prefix of hexadecimal digits, stopping at the first other character |
| UnifiedButton.ParseHexInt | components/UnifiedButton.tsx:75 | `parseInt(s, 16)` of empty text is NaN, and its magnitude is below `16^|s|` |
| UnifiedButton.ParseHexDigits | components/UnifiedButton.tsx:75 | a non-empty string of hexadecimal digits parses to its value |
| UnifiedButton.HexChannels | components/UnifiedButton.tsx:76 | every channel is an integer in 0..255; NaN gives channels 0, 0, 0; otherwise red, green and blue agree modulo 256 with the 32-bit conversion shifted right by 16, by 8 and not at all |
| UnifiedButton.LowByte | components/UnifiedButton.tsx:76 | `& 255` gives an integer in 0..255 that agrees with its operand modulo 256 |
| UnifiedButton.Doubled | components/UnifiedButton.tsx:73 | every character is written twice |
| UnifiedButton.DoubledThree | components/UnifiedButton.tsx:73 | `abc` becomes `aabbcc` |
| UnifiedButton.MatchHere | components/UnifiedButton.tsx:78 | a capture is non-empty, holds no `)`, and sits after `rgb` or `rgba` (any case) and `(`, followed by `)` |
| UnifiedButton.MatchFrom | components/UnifiedButton.tsx:78 | a capture found from a position is non-empty and holds no `)` |
| UnifiedButton.RgbaMatch | components/UnifiedButton.tsx:78 | likewise for the search over the whole string |
| UnifiedButton.MatchFromLeftmost | components/UnifiedButton.tsx:78 | the search from a position fails iff no later position matches, else returns the first match |
| UnifiedButton.RgbaMatchLeftmost | components/UnifiedButton.tsx:78 | `match` returns the leftmost match and finds one whenever some position matches |
| UnifiedButton.MatchHereFunctional | components/UnifiedButton.tsx:78 | `rgb(list)` and `rgba(list)` match at their start, capturing the list |
| UnifiedButton.FunctionalSyntaxCaptured | components/UnifiedButton.tsx:78 | a string starting with `rgb(list)` or `rgba(list)` captures that list |
| UnifiedButton.Clamp255 | components/UnifiedButton.tsx:87-90 | NaN gives 0; a number is rounded and clamped to an integer in 0..255; a missing element gives NaN |
| UnifiedButton.Clamp255Idempotent | components/UnifiedButton.tsx:87-90 | clamping a clamped channel changes nothing |
| UnifiedButton.Component | components/UnifiedButton.tsx:80 | element `i` is `parseFloat(trim(part i))`, and absent past the end |
| UnifiedButton.HexColor | components/UnifiedButton.tsx:71-76 | the hexadecimal branch always gives three finite channels in 0..255 |
| UnifiedButton.ListColor | components/UnifiedButton.tsx:79-81 | each channel is the clamped `parseFloat` of the trimmed list element at its index, NaN when the list has no such element (blue is NaN iff there are fewer than three); red is always in 0..255 |
| UnifiedButton.ToRgb | components/UnifiedButton.tsx:68-85 | `#…` after trimming takes the hexadecimal branch; else a functional match takes the list branch; else the fallback blue |
| UnifiedButton.Background | components/UnifiedButton.tsx:29-32 | disabled gives the translucent grey; else the given colour, or `#3B82F6` when none |
| UnifiedButton.IsLight | components/UnifiedButton.tsx:39-40 | light iff every channel is a number and `299 r + 587 g + 114 b > 178500`, i.e. the luminance exceeds 0.7 |
| UnifiedButton.TextColor | components/UnifiedButton.tsx:34-44 | disabled gives `#888`; else `#111` exactly when the background is light, else `#fff` |
| UnifiedButton.HashIsHex | components/UnifiedButton.tsx:69-71 | `#` followed by text ending in a non-space takes the hexadecimal branch |
| UnifiedButton.SixDigitValue | components/UnifiedButton.tsx:75 | six digits have the value of their three pairs as bytes |
| UnifiedButton.ChannelsOfBytes | components/UnifiedButton.tsx:76 | the shifts and masks split a 24-bit value into its three bytes |
| UnifiedButton.HexColorOfSix | components/UnifiedButton.tsx:71-76 | a six-character hexadecimal body is parsed directly, not expanded |
| UnifiedButton.ChannelsOfSixDigitValue | components/UnifiedButton.tsx:76 | the value of six digits splits into the bytes of its pairs |
| UnifiedButton.SixDigitChannels | components/UnifiedButton.tsx:75-76 | `#rrggbb` gives the channels written by its pairs |
| UnifiedButton.SixCharChannels | components/UnifiedButton.tsx:75-76 | the same, stated on six digit characters |
| UnifiedButton.HexColorShorthand | components/UnifiedButton.tsx:72-74 | three characters are read as their doubling |
| UnifiedButton.ShorthandExpands | components/UnifiedButton.tsx:72-74 | `#abc` gives the colour of `#aabbcc` |
| UnifiedButton.HexColorIgnoresRest | components/UnifiedButton.tsx:75 | only the first six characters are parsed |
| UnifiedButton.TrimAfterHex | components/UnifiedButton.tsx:69 | trimming `#rrggbb…` only trims the tail |
| UnifiedButton.TrailingTextIgnored | components/UnifiedButton.tsx:69-75 | text after six characters does not change the colour |
| UnifiedButton.DefaultBlueHex | components/UnifiedButton.tsx:31 | `3B82F6` gives 59, 130, 246 |
| UnifiedButton.DefaultBlueChannels | components/UnifiedButton.tsx:31 | the default background has the fallback channels |
| UnifiedButton.FallbackIsDefaultBlue | components/UnifiedButton.tsx:83-84 | an unrecognised colour reads as the default background |
| UnifiedButton.FunctionalChannels | components/UnifiedButton.tsx:78-81 | `rgb(list)` gives the clamped channels of its list |
| UnifiedButton.ShortListGivesLightText | components/UnifiedButton.tsx:39-40 | `rgb(…)` with fewer than three values gets white text (NaN luminance is not light) |
| UnifiedButton.DefaultButtonHasLightText | components/UnifiedButton.tsx:31 | the default blue button has white text |
| UnifiedButton.WhiteHex | components/UnifiedButton.tsx:75-76 | `ffffff` is 255, 255, 255 |
| UnifiedButton.BlackHex | components/UnifiedButton.tsx:75-76 | `000000` is 0, 0, 0 |
| UnifiedButton.WhiteShorthand | components/UnifiedButton.tsx:72-76 | `#fff` is white |
| UnifiedButton.BlackShorthand | components/UnifiedButton.tsx:72-76 | `#000` is black |
| UnifiedButton.WhiteAndBlackText | components/UnifiedButton.tsx:34-44 | a white button gets `#111` text and a black one `#fff` |

## Left out

Numbers and text:

- Infinities are not modelled; `JsNumber.Number` is a finite real or NaN.
- Floating-point rounding is not modelled: real arithmetic stands for it.
- JavaScript's `Number`, `parseFloat`, decimal `parseInt` and the native `ExpoGaodeMapModule.parsePolyline` are function parameters. Their implementations are not part of this model.
- UnifiedButton.HexColor: `hex.length` counts UTF-16 code units in JavaScript. The model counts characters, so the two differ only for characters outside the Basic Multilingual Plane.
- UnifiedButton.TextColor: the luminance `(0.299 r + 0.587 g + 0.114 b) / 255 > 0.7` is compared in exact real arithmetic. Binary floating point could decide a value within rounding error of the threshold the other way.
- UnifiedButton.TextColor: the `catch` branch is not modelled. `toRgb` cannot throw on a string, so that branch is never taken.
- RouteUtils.FormatDistance: the kilometre label is the real value `meters / 1000`, not the `toFixed(2)` text. The metre label is the number, not its decimal text.
- JsText.NatText: JavaScript prints numbers from 10^21 on in exponent form (`1e+21`). The decimal text modelled here is what `${n}` gives only below 10^21. So the duration labels are modelled only for under 6·10^22 seconds.

Paths and inputs:

- RouteUtils.SimplifyPath: `maxPoints` is a natural number. A negative or fractional `maxPoints` is not modelled, and neither is the default value 200.
- RouteUtils.ParsePolyline: a non-string argument is not modelled, and neither is the `catch`, which cannot be reached for a string. Undefined is modelled as None.
- RouteUtils.RouteBounds: `Math.max(...lats)` and `Math.min(...lats)` spread the whole path into arguments. For a very large path JavaScript throws a RangeError there; the model always computes the box.

Routing service:

- The routing service is not modelled. Its answers are inputs: a request either threw or returned `route?.paths` / `route?.transits`.
- Only the fields the hook reads are kept. `segments` (`any` in the source) is modelled as walking, bus and railway polyline lists.
- The origin and destination strings, the city codes and the request options only travel to the service and are not modelled.
- The numeric values of the SDK's `DrivingStrategy` enumeration are not part of this model; the strategies are a datatype.
- RoutePlanning.CalculateDrivingRoutes: only the request itself can fail. An exception thrown by the polyline decoder after some routes were pushed is not modelled.
- RoutePlanning.CalculateBicyclingRoutes: the polyline decoder is total in the model. If it threw, cycling and transit planning would return no routes from their `catch`. Walking would make `calculateRoute` return null. The same applies to RoutePlanning.CalculateTransitRoutes and RoutePlanning.WalkingRoutes.
- RoutePlanning.NearAny: its contract states only the cases where nothing is near. The full `some` equivalence is the function's own definition and is not repeated as a postcondition.
- RoutePlanning.WalkingRoutes: a failed request is the value None, not an exception. The hook turns it into a null result.
- RoutePlanning.CollectSegmentPoints: `push(...points)` can throw a RangeError for a very large array in JavaScript. The model appends without limit.

React and side effects:

- Toasts, console output and rendering are not modelled: styles, `Pressable`, the iOS pressed opacity and the Android ripple.
- `useMemo` caching and the asynchronous `await` ordering are not modelled either.
- RoutePlanning.RoutePlanner.CalculateRoute: the calculating flag is `true` while the requests run. The model states only the value at the end, when it is always `false`.

## Findings

| source | as written | input that shows it | evidently intended | confidence | as-written member | corrected member |
|---|---|---|---|---|---|---|
| utils/routeUtils.ts:32 | the stride is `Math.floor(points.length / maxPoints)`, so a path shorter than `2·maxPoints` gets stride 1 and is not reduced at all | `simplifyPath` of a 299-point path with `maxPoints` 150 (the call in `app/(map)/webAPINavigationTest.tsx:185`) returns all 299 points | at most `maxPoints` points, e.g. with stride `ceil((n - 1) / (maxPoints - 1))` | medium; not executed | RouteUtils.SampledExceedsMax | RouteUtils.BoundedSampleWithinMax |

=== FILE: js_number.dfy ===
/**
 * JavaScript numbers as the core uses them: a finite value or NaN, the
 * rounding of `Math.round`, and the 32-bit conversion that the bitwise
 * operators `>>` and `&` apply to their operands.
 */
module JsNumber {

  /** A JavaScript number. Infinities are not modelled. */
  datatype Number = NaN | Finite(val: real)

  /** An integer as a JavaScript number. */
  function FromInt(i: int): (n: Number)
    ensures n.Finite? && n.val.Floor == i && n.val == n.val.Floor as real
  {
    Finite(i as real)
  }

  /** `Math.round(x)` for finite `x`: the nearest integer, halves going up. */
  function Round(x: real): (r: int)
    ensures r as real - 0.5 <= x < r as real + 0.5
  {
    (x + 0.5).Floor
  }

  /** `Math.floor(x / 60)`: whole minutes in `x` seconds. */
  function WholeMinutes(seconds: real): (m: int)
    ensures m as real * 60.0 <= seconds < (m + 1) as real * 60.0
  {
    (seconds / 60.0).Floor
  }

  /** ToInt32: the signed 32-bit integer congruent to `v` modulo 2^32. */
  function ToInt32(v: int): (r: int)
    ensures -0x8000_0000 <= r < 0x8000_0000
    ensures (v - r) % 0x1_0000_0000 == 0
    ensures -0x8000_0000 <= v < 0x8000_0000 ==> r == v
  {
    var m := v % 0x1_0000_0000;
    if m >= 0x8000_0000 then m - 0x1_0000_0000 else m
  }

  /**
   * `Math.abs(a - b) < limit`: false as soon as either side is NaN, because
   * every comparison with NaN is false.
   */
  function CloserThan(a: Number, b: Number, limit: real): (close: bool)
    ensures a.NaN? || b.NaN? ==> !close
    ensures close ==> a.val - b.val < limit && b.val - a.val < limit
    ensures a.Finite? && b.Finite? && a.val - b.val < limit && b.val - a.val < limit ==> close
    ensures a.Finite? && b.Finite? && a.val == b.val ==> (close <==> limit > 0.0)
  {
    a.Finite? && b.Finite? && -limit < a.val - b.val < limit
  }
}

=== FILE: js_text.dfy ===
/**
 * The JavaScript string operations the core builds on: `split` with a
 * one-character separator and its inverse `join`, `trim` over the
 * ECMAScript white-space set, the decimal text of an integer (template
 * literal `${n}`), a reader for that text, and `indexOf` for one character.
 */
module JsText {
  import opened Wrappers

  /** Number of times `c` occurs in `s`. */
  function Occurrences(s: string, c: char): nat
  {
    if s == [] then 0 else (if s[0] == c then 1 else 0) + Occurrences(s[1..], c)
  }

  /** `c` occurs in `s` exactly when it is counted at least once. */
  lemma {:induction false} OccurrencesPositive(s: string, c: char)
    ensures Occurrences(s, c) > 0 <==> c in s
  {
    if s != [] {
      OccurrencesPositive(s[1..], c);
      assert s == [s[0]] + s[1..];
    }
  }

  /** `s.split(sep)`: the pieces between separators, at least one (`"".split(';')` is `[""]`). */
  function Split(s: string, sep: char): (parts: seq<string>)
    ensures |parts| == Occurrences(s, sep) + 1
    ensures forall i :: 0 <= i < |parts| ==> sep !in parts[i]
  {
    if s == [] then [""]
    else
      var rest := Split(s[1..], sep);
      if s[0] == sep then [""] + rest
      else [[s[0]] + rest[0]] + rest[1..]
  }

  /** `parts.join(sep)`. */
  function Join(parts: seq<string>, sep: char): string
  {
    if parts == [] then ""
    else if |parts| == 1 then parts[0]
    else parts[0] + [sep] + Join(parts[1..], sep)
  }

  /** Joining the pieces of a split gives back the string. */
  lemma {:induction false} JoinSplit(s: string, sep: char)
    ensures Join(Split(s, sep), sep) == s
  {
    if s != [] {
      var rest := Split(s[1..], sep);
      JoinSplit(s[1..], sep);
      if s[0] == sep {
        assert ([""] + rest)[1..] == rest;
      } else {
        var parts := [[s[0]] + rest[0]] + rest[1..];
        if |rest| == 1 {
          assert s == [s[0]] + s[1..];
        } else {
          assert parts[1..] == rest[1..];
          assert Join(rest, sep) == rest[0] + [sep] + Join(rest[1..], sep);
          assert s == [s[0]] + s[1..];
        }
      }
    }
  }

  /** Splitting a string whose first piece `x` holds no separator. */
  lemma {:induction false} SplitPrefix(x: string, y: string, sep: char)
    requires sep !in x
    ensures Split(x + y, sep) == [x + Split(y, sep)[0]] + Split(y, sep)[1..]
  {
    if x != [] {
      var parts := Split(y, sep);
      assert (x + y)[1..] == x[1..] + y;
      SplitPrefix(x[1..], y, sep);
      var rest := Split(x[1..] + y, sep);
      assert rest[0] == x[1..] + parts[0] && rest[1..] == parts[1..];
      assert Split(x + y, sep) == [[x[0]] + rest[0]] + rest[1..];
      assert [x[0]] + (x[1..] + parts[0]) == x + parts[0];
    } else {
      var parts := Split(y, sep);
      assert x + y == y && x + parts[0] == parts[0];
      assert parts == [parts[0]] + parts[1..];
    }
  }

  /** Splitting the join of separator-free pieces gives back the pieces. */
  lemma {:induction false} SplitJoin(parts: seq<string>, sep: char)
    requires |parts| >= 1
    requires forall i :: 0 <= i < |parts| ==> sep !in parts[i]
    ensures Split(Join(parts, sep), sep) == parts
  {
    if |parts| == 1 {
      SplitPrefix(parts[0], "", sep);
      assert parts[0] + "" == parts[0];
    } else {
      var tail := Join(parts[1..], sep);
      SplitJoin(parts[1..], sep);
      assert parts[0] + [sep] + tail == parts[0] + ([sep] + tail);
      SplitPrefix(parts[0], [sep] + tail, sep);
      assert ([sep] + tail)[1..] == tail;
      assert Split([sep] + tail, sep) == [""] + Split(tail, sep);
      assert parts[0] + "" == parts[0];
      assert parts == [parts[0]] + parts[1..];
    }
  }

  /** ECMAScript WhiteSpace and LineTerminator code points, the set `trim` removes. */
  predicate IsWhiteSpace(c: char)
  {
    || c == '\t' || c == '\n' || c == '\U{000B}' || c == '\U{000C}' || c == '\r'
    || c == ' ' || c == '\U{00A0}' || c == '\U{1680}' || ('\U{2000}' <= c <= '\U{200A}')
    || c == '\U{2028}' || c == '\U{2029}' || c == '\U{202F}' || c == '\U{205F}'
    || c == '\U{3000}' || c == '\U{FEFF}'
  }

  /** Leading white space removed: a suffix of `s` starting with a non-space. */
  function TrimStart(s: string): (r: string)
    ensures |r| <= |s| && r == s[|s| - |r|..]
    ensures r != [] ==> !IsWhiteSpace(r[0])
  {
    if s != [] && IsWhiteSpace(s[0]) then TrimStart(s[1..]) else s
  }

  /** ... and what it removes is white space only. */
  lemma {:induction false} TrimStartRemovesWhiteSpace(s: string)
    ensures forall i :: 0 <= i < |s| - |TrimStart(s)| ==> IsWhiteSpace(s[i])
  {
    if s != [] && IsWhiteSpace(s[0]) {
      TrimStartRemovesWhiteSpace(s[1..]);
      assert forall i :: 1 <= i < |s| ==> s[i] == s[1..][i - 1];
    }
  }

  /** Trailing white space removed: a prefix of `s` ending with a non-space. */
  function TrimEnd(s: string): (r: string)
    ensures |r| <= |s| && r == s[..|r|]
    ensures r != [] ==> !IsWhiteSpace(r[|r| - 1])
  {
    if s != [] && IsWhiteSpace(s[|s| - 1]) then TrimEnd(s[..|s| - 1]) else s
  }

  /** ... and what it removes is white space only. */
  lemma {:induction false} TrimEndRemovesWhiteSpace(s: string)
    ensures forall i :: |TrimEnd(s)| <= i < |s| ==> IsWhiteSpace(s[i])
  {
    if s != [] && IsWhiteSpace(s[|s| - 1]) {
      TrimEndRemovesWhiteSpace(s[..|s| - 1]);
    }
  }

  /** Past the start-trimmed text, what the end trim drops is white space in `s` itself. */
  lemma TrimEndsRemoveWhiteSpace(s: string)
    ensures forall i :: |s| - |TrimStart(s)| + |TrimEnd(TrimStart(s))| <= i < |s| ==> IsWhiteSpace(s[i])
  {
    var t := TrimStart(s);
    TrimEndRemovesWhiteSpace(t);
    forall i | |s| - |t| + |TrimEnd(t)| <= i < |s|
      ensures IsWhiteSpace(s[i])
    {
      assert s[i] == t[i - (|s| - |t|)];
    }
  }

  /** `s.trim()`: a slice of `s` that neither starts nor ends with white space, empty for blank text. */
  function Trim(s: string): (r: string)
    ensures |r| <= |s|
    ensures r <= TrimStart(s) && TrimStart(s) == s[|s| - |TrimStart(s)|..]
    ensures r != [] ==> !IsWhiteSpace(r[0]) && !IsWhiteSpace(r[|r| - 1])
    ensures (forall i :: 0 <= i < |s| ==> IsWhiteSpace(s[i])) ==> r == []
  {
    var t := TrimStart(s);
    var r := TrimEnd(t);
    assert r != [] ==> r[0] == t[0];
    assert t != [] ==> t[0] == s[|s| - |t|];
    r
  }

  /** What `trim` drops on either side of its result is white space only. */
  lemma TrimDropsOnlyWhiteSpace(s: string)
    ensures forall i :: 0 <= i < |s| - |TrimStart(s)| ==> IsWhiteSpace(s[i])
    ensures forall i :: |s| - |TrimStart(s)| + |Trim(s)| <= i < |s| ==> IsWhiteSpace(s[i])
  {
    TrimStartRemovesWhiteSpace(s);
    TrimEndsRemoveWhiteSpace(s);
  }

  /** Trailing white space after a non-space is trimmed without touching what precedes it. */
  lemma {:induction false} TrimEndAfter(x: string, y: string)
    requires x != [] && !IsWhiteSpace(x[|x| - 1])
    ensures TrimEnd(x + y) == x + TrimEnd(y)
  {
    if y == [] {
      assert x + y == x;
    } else if IsWhiteSpace(y[|y| - 1]) {
      assert (x + y)[..|x + y| - 1] == x + y[..|y| - 1];
      TrimEndAfter(x, y[..|y| - 1]);
    }
  }

  /** The first index of `c` in `s` (`s.indexOf(c)`, with -1 as None). */
  function IndexOf(s: string, c: char): (k: Option<nat>)
    ensures k.None? <==> c !in s
    ensures k.Some? ==> k.value < |s| && s[k.value] == c && c !in s[..k.value]
  {
    if s == [] then None
    else if s[0] == c then Some(0)
    else match IndexOf(s[1..], c)
      case None => None
      case Some(j) => (assert s[..j + 1] == [s[0]] + s[1..][..j]; Some(j + 1))
  }

  /** A character absent from `a` is first found where `b` begins. */
  lemma IndexOfAfter(a: string, b: string, c: char)
    requires c !in a && b != [] && b[0] == c
    ensures IndexOf(a + b, c) == Some(|a|)
  {
    assert (a + b)[|a|] == c;
  }

  predicate IsDigit(c: char)
  {
    '0' <= c <= '9'
  }

  function DigitChar(d: nat): (c: char)
    requires d < 10
    ensures IsDigit(c) && c as int - '0' as int == d
  {
    (d + '0' as int) as char
  }

  /** The decimal text of a natural number, as `${n}` prints it (no leading zeros). */
  function NatText(n: nat): (t: string)
    ensures t != [] && forall i :: 0 <= i < |t| ==> IsDigit(t[i])
  {
    if n < 10 then [DigitChar(n)] else NatText(n / 10) + [DigitChar(n % 10)]
  }

  /** The text has no leading zero: a single digit below ten, and a nonzero first digit otherwise. */
  lemma {:induction false} NatTextNoLeadingZero(n: nat)
    ensures |NatText(n)| == 1 <==> n < 10
    ensures n > 0 ==> NatText(n)[0] != '0'
    ensures |NatText(n)| > 1 ==> NatText(n)[0] != '0'
  {
    if n >= 10 {
      NatTextNoLeadingZero(n / 10);
      assert NatText(n)[0] == NatText(n / 10)[0];
    }
  }

  /** The decimal text of an integer, with a leading `-` when negative. */
  function IntText(i: int): (t: string)
    ensures t != [] && (t[0] == '-' <==> i < 0)
    ensures forall k :: (if i < 0 then 1 else 0) <= k < |t| ==> IsDigit(t[k])
    ensures i < 0 ==> |t| >= 2 && t[1] != '0'
    ensures i >= 0 && |t| > 1 ==> t[0] != '0'
  {
    NatTextNoLeadingZero(if i < 0 then -i else i);
    if i < 0 then "-" + NatText(-i) else NatText(i)
  }

  /** Reads a non-empty string of decimal digits; None for anything else. */
  function ReadNat(t: string): (n: Option<nat>)
    ensures n.Some? ==> t != []
  {
    if t == [] || !IsDigit(t[|t| - 1]) then None
    else
      var last := t[|t| - 1] as int - '0' as int;
      if |t| == 1 then Some(last)
      else match ReadNat(t[..|t| - 1])
        case None => None
        case Some(v) => Some(v * 10 + last)
  }

  /** Reads an optionally negative decimal integer. */
  function ReadInt(t: string): Option<int>
  {
    if t != [] && t[0] == '-' then
      match ReadNat(t[1..])
      case None => None
      case Some(n) => Some(0 - n)
    else
      match ReadNat(t)
      case None => None
      case Some(n) => Some(n)
  }

  /** The decimal text of `n` reads back as `n`. */
  lemma {:induction false} ReadNatText(n: nat)
    ensures ReadNat(NatText(n)) == Some(n)
  {
    if n >= 10 {
      var t := NatText(n);
      ReadNatText(n / 10);
      assert t[..|t| - 1] == NatText(n / 10);
    }
  }

  /** The decimal text of `i` reads back as `i`. */
  lemma ReadIntText(i: int)
    ensures ReadInt(IntText(i)) == Some(i)
  {
    if i < 0 {
      ReadNegativeText(-i);
    } else {
      var t := NatText(i);
      ReadNatText(i);
      assert IsDigit(t[0]);
    }
  }

  lemma ReadNegativeText(n: nat)
    requires n > 0
    ensures ReadInt("-" + NatText(n)) == Some(0 - n)
  {
    var t := NatText(n);
    ReadNatText(n);
    assert ("-" + t)[1..] == t;
  }

  /** Distinct natural numbers print differently. */
  lemma NatTextInjective(a: nat, b: nat)
    ensures NatText(a) == NatText(b) <==> a == b
  {
    ReadNatText(a);
    ReadNatText(b);
  }
}

=== FILE: route_planning.dfy ===
/**
 * The route planning hook: one request per driving strategy with the
 * clearly different alternatives kept, the walking, cycling and transit
 * plans, the assembly of a transit route from its segments, and the hook's
 * own state (whether a calculation is running, the routes on show, the
 * selected kind of route).
 *
 * The routing service and the native polyline decoder are outside the
 * model: their answers are inputs (`RouteAnswer`, `TransitAnswer`), and
 * `parseInt` and `ExpoGaodeMapModule.parsePolyline` are the function
 * parameters bundled in `Natives`.
 */
module RoutePlanning {
  import opened Wrappers
  import opened JsNumber
  import opened JsText
  import opened RouteUtils

  // ---------------------------------------------------------------------------
  // Data
  // ---------------------------------------------------------------------------

  datatype DrivingStrategy = Default | AvoidJam | HighwayFirst | NoHighway | LessToll

  datatype StrategyOption = StrategyOption(value: DrivingStrategy, name: string)

  /** The five strategies, in the order they are requested, with their display names. */
  const Strategies: seq<StrategyOption> := [
    StrategyOption(Default, "速度优先"),
    StrategyOption(AvoidJam, "躲避拥堵"),
    StrategyOption(HighwayFirst, "高速优先"),
    StrategyOption(NoHighway, "不走高速"),
    StrategyOption(LessToll, "少收费")
  ]

  /** The functions the hook calls but does not define: decimal `parseInt` and the native polyline decoder. */
  datatype Natives = Natives(parseInt: string -> Number, decodePolyline: string -> seq<Point>)

  /**
   * A path as the service returns it: its distance text, the optional
   * `cost.duration`, `duration`, `cost.tolls` and `cost.traffic_lights`
   * texts, and the polylines of its steps (None when `steps` is absent).
   */
  datatype ServicePath = ServicePath(
    distance: string,
    costDuration: Option<string>,
    duration: Option<string>,
    tolls: Option<string>,
    trafficLights: Option<string>,
    steps: Option<seq<string>>)

  /** The answer to one route request: it threw, or it returned `route?.paths` (None when absent). */
  datatype RouteAnswer = Thrown | Answered(paths: Option<seq<ServicePath>>)

  /** A transit segment: the polylines of its walking steps, bus lines and railway lines. */
  datatype Segment = Segment(walking: Option<seq<string>>, bus: Option<seq<string>>, railway: Option<seq<string>>)

  datatype Transit = Transit(
    distance: string,
    costDuration: Option<string>,
    transitFee: Option<string>,
    walkingDistance: Option<string>,
    segments: Option<seq<Segment>>)

  /** The answer to the transit request; a transit entry may be null. */
  datatype TransitAnswer = TransitThrown | TransitAnswered(transits: Option<seq<Option<Transit>>>)

  /** Everything the service answers, per kind of route. */
  datatype Answers = Answers(
    driving: DrivingStrategy -> RouteAnswer,
    walking: RouteAnswer,
    bicycling: RouteAnswer,
    transit: TransitAnswer)

  datatype RouteData = RouteData(
    id: nat,
    distance: Number,
    duration: Number,
    tolls: Option<string>,
    trafficLights: Option<string>,
    transitFee: Option<string>,
    walkingDistance: Option<Number>,
    polyline: seq<Point>,
    strategyName: string,
    strategy: Option<DrivingStrategy>,
    color: Option<string>,
    segments: Option<seq<Segment>>)

  datatype RouteType = Driving | Walking | Bicycling | TransitRoute

  // ---------------------------------------------------------------------------
  // Shared pieces
  // ---------------------------------------------------------------------------

  /** `text || fallback`: the fallback when the text is absent or empty. */
  function OrElse(text: Option<string>, fallback: string): (r: string)
    ensures r == fallback || (text == Some(r) && r != "")
    ensures fallback != "" ==> r != ""
    ensures text.Some? && text.value != "" ==> r == text.value
  {
    if text.Some? && text.value != "" then text.value else fallback
  }

  /** `xs.flatMap(f)`. */
  function FlatMap<T>(xs: seq<T>, f: T -> seq<Point>): seq<Point>
  {
    if xs == [] then [] else FlatMap(xs[..|xs| - 1], f) + f(xs[|xs| - 1])
  }

  lemma {:induction false} FlatMapAppend<T>(xs: seq<T>, ys: seq<T>, f: T -> seq<Point>)
    ensures FlatMap(xs + ys, f) == FlatMap(xs, f) + FlatMap(ys, f)
  {
    if ys != [] {
      var last := ys[|ys| - 1];
      assert (xs + ys)[..|xs + ys| - 1] == xs + ys[..|ys| - 1];
      FlatMapAppend(xs, ys[..|ys| - 1], f);
    } else {
      assert xs + ys == xs;
    }
  }

  /** Every point of a flat map comes from one element, and every point of every element is in it. */
  lemma {:induction false} FlatMapMember<T>(xs: seq<T>, f: T -> seq<Point>, p: Point)
    ensures p in FlatMap(xs, f) <==> exists i :: 0 <= i < |xs| && p in f(xs[i])
  {
    if xs != [] {
      var init := xs[..|xs| - 1];
      FlatMapMember(init, f, p);
      if p in FlatMap(init, f) {
        var i :| 0 <= i < |init| && p in f(init[i]);
        assert xs[i] == init[i];
      }
      if exists i :: 0 <= i < |xs| && p in f(xs[i]) {
        var i :| 0 <= i < |xs| && p in f(xs[i]);
        if i < |init| {
          assert init[i] == xs[i];
        }
      }
    }
  }

  /** `steps?.flatMap((step) => parsePolyline(step.polyline)) || []`. */
  function StepsPolyline(steps: Option<seq<string>>, decode: string -> seq<Point>): seq<Point>
  {
    match steps
    case None => []
    case Some(lines) => FlatMap(lines, decode)
  }

  /** The name of the `index`-th walking, cycling or transit plan. */
  function PlanName(index: nat): (name: string)
    ensures index == 0 <==> name == "推荐"
  {
    if index == 0 then "推荐" else "方案" + NatText(index + 1)
  }

  /** Different plans get different names. */
  lemma PlanNamesDistinct(i: nat, j: nat)
    ensures PlanName(i) == PlanName(j) <==> i == j
  {
    if i != 0 && j != 0 && PlanName(i) == PlanName(j) {
      assert NatText(i + 1) == PlanName(i)[2..] && NatText(j + 1) == PlanName(j)[2..];
      NatTextInjective(i + 1, j + 1);
    }
  }

  // ---------------------------------------------------------------------------
  // Driving: one request per strategy, clearly different alternatives kept
  // ---------------------------------------------------------------------------

  /** The route built from a driving path. */
  function DrivingRoute(path: ServicePath, id: nat, name: string, strategy: DrivingStrategy, natives: Natives): (r: RouteData)
    ensures r.id == id && r.strategyName == name && r.strategy == Some(strategy) && r.color == RouteColor(id)
    ensures r.distance == natives.parseInt(path.distance)
    ensures r.duration == natives.parseInt(OrElse(path.costDuration, "0"))
    ensures r.polyline == StepsPolyline(path.steps, natives.decodePolyline)
    ensures r.tolls == Some(OrElse(path.tolls, "0")) && r.trafficLights == Some(OrElse(path.trafficLights, "0"))
    ensures r.tolls.value != "" && r.trafficLights.value != ""
    ensures r.transitFee.None? && r.walkingDistance.None? && r.segments.None?
  {
    RouteData(
      id,
      natives.parseInt(path.distance),
      natives.parseInt(OrElse(path.costDuration, "0")),
      Some(OrElse(path.tolls, "0")),
      Some(OrElse(path.trafficLights, "0")),
      None,
      None,
      StepsPolyline(path.steps, natives.decodePolyline),
      name,
      Some(strategy),
      RouteColor(id),
      None)
  }

  /** `${name}备选${i}`. */
  function AlternateName(name: string, i: nat): string
  {
    name + "备选" + NatText(i)
  }

  predicate IsStrategyName(name: string)
  {
    exists k :: 0 <= k < |Strategies| && Strategies[k].name == name
  }

  /** Within 500 m and 150 s of `r` (false when any of the numbers is NaN). */
  function IsNear(r: RouteData, distance: Number, duration: Number): (near: bool)
    ensures near ==> r.distance.Finite? && r.duration.Finite? && distance.Finite? && duration.Finite?
    ensures r.distance == distance && r.duration == duration && distance.Finite? && duration.Finite? ==> near
    ensures near <==> CloserThan(r.distance, distance, 500.0) && CloserThan(r.duration, duration, 150.0)
  {
    CloserThan(r.distance, distance, 500.0) && CloserThan(r.duration, duration, 150.0)
  }

  /** `routes.some((r) => IsNear(r, distance, duration))`. */
  function NearAny(routes: seq<RouteData>, distance: Number, duration: Number): (near: bool)
    ensures routes == [] || distance.NaN? || duration.NaN? ==> !near
  {
    exists j :: 0 <= j < |routes| && IsNear(routes[j], distance, duration)
  }

  /** The `i`-th alternative is kept when no route so far is near it and fewer than ten routes exist. */
  function ConsiderAlternate(routes: seq<RouteData>, path: ServicePath, i: nat, option: StrategyOption, natives: Natives): seq<RouteData>
  {
    var candidate := DrivingRoute(path, |routes|, AlternateName(option.name, i), option.value, natives);
    if !NearAny(routes, candidate.distance, candidate.duration) && |routes| < 10 then routes + [candidate]
    else routes
  }

  /** The routes after the alternatives `1 .. i-1` of `paths` have been considered. */
  function AlternatesUpTo(base: seq<RouteData>, paths: seq<ServicePath>, i: nat, option: StrategyOption, natives: Natives): seq<RouteData>
    requires 1 <= i <= |paths|
  {
    if i == 1 then base
    else ConsiderAlternate(AlternatesUpTo(base, paths, i - 1, option, natives), paths[i - 1], i - 1, option, natives)
  }

  /** One strategy: nothing when the request threw or found no path; else its first path and then the alternatives. */
  function AfterStrategy(routes: seq<RouteData>, option: StrategyOption, answer: RouteAnswer, natives: Natives): seq<RouteData>
  {
    if answer.Answered? && answer.paths.Some? && |answer.paths.value| > 0 then
      var paths := answer.paths.value;
      AlternatesUpTo(routes + [DrivingRoute(paths[0], |routes|, option.name, option.value, natives)], paths, |paths|, option, natives)
    else routes
  }

  /** The routes after the first `k` strategies. */
  function DrivingAfter(k: nat, answers: DrivingStrategy -> RouteAnswer, natives: Natives): seq<RouteData>
    requires k <= |Strategies|
  {
    if k == 0 then []
    else
      var option := Strategies[k - 1];
      AfterStrategy(DrivingAfter(k - 1, answers, natives), option, answers(option.value), natives)
  }

  /** What `calculateDrivingRoutes` returns. */
  function DrivingRoutes(answers: DrivingStrategy -> RouteAnswer, natives: Natives): (r: seq<RouteData>)
    ensures |r| <= 14
    ensures forall j :: 0 <= j < |r| ==> r[j].id == j && r[j].color == RouteColor(j)
  {
    DrivingAfterKeeps(|Strategies|, answers, natives);
    DrivingAfter(|Strategies|, answers, natives)
  }

  /**
   * `calculateDrivingRoutes`: the five strategies in order; a failed request
   * is skipped; the first path of each answer is always kept, each further
   * path only when it is clearly different from every route so far and
   * fewer than ten routes exist.
   */
  method CalculateDrivingRoutes(answers: DrivingStrategy -> RouteAnswer, natives: Natives)
    returns (allRoutes: seq<RouteData>)
    ensures allRoutes == DrivingRoutes(answers, natives)
  {
    allRoutes := [];
    var routeId := 0;
    for k := 0 to |Strategies|
      invariant allRoutes == DrivingAfter(k, answers, natives) && routeId == |allRoutes|
    {
      var strategy := Strategies[k];
      var result := answers(strategy.value);
      if result.Answered? && result.paths.Some? && |result.paths.value| > 0 {
        var paths := result.paths.value;
        allRoutes := allRoutes + [DrivingRoute(paths[0], routeId, strategy.name, strategy.value, natives)];
        routeId := routeId + 1;
        ghost var base := allRoutes;
        for i := 1 to |paths|
          invariant allRoutes == AlternatesUpTo(base, paths, i, strategy, natives) && routeId == |allRoutes|
        {
          var altPath := paths[i];
          var altDistance := natives.parseInt(altPath.distance);
          var altDuration := natives.parseInt(OrElse(altPath.costDuration, "0"));
          var isDifferent := !NearAny(allRoutes, altDistance, altDuration);
          if isDifferent && |allRoutes| < 10 {
            allRoutes := allRoutes + [DrivingRoute(altPath, routeId, AlternateName(strategy.name, i), strategy.value, natives)];
            routeId := routeId + 1;
          }
          assert allRoutes == AlternatesUpTo(base, paths, i + 1, strategy, natives);
        }
        assert allRoutes == AfterStrategy(DrivingAfter(k, answers, natives), strategy, result, natives);
      }
      assert allRoutes == DrivingAfter(k + 1, answers, natives);
    }
  }

  // --- invariants of the driving routes ---

  /** Route `j` has id `j` and the `j`-th colour. */
  predicate Numbered(routes: seq<RouteData>)
  {
    forall j :: 0 <= j < |routes| ==> routes[j].id == j && routes[j].color == RouteColor(j)
  }

  /** Every route not named after a strategy is among the first ten and is not near any earlier route. */
  predicate Separated(routes: seq<RouteData>)
  {
    forall j :: 0 <= j < |routes| && !IsStrategyName(routes[j].strategyName) ==>
      j < 10 && !NearAny(routes[..j], routes[j].distance, routes[j].duration)
  }

  predicate DrivingInvariant(routes: seq<RouteData>)
  {
    Numbered(routes) && Separated(routes)
  }

  lemma ConsiderAlternateKeeps(routes: seq<RouteData>, path: ServicePath, i: nat, option: StrategyOption, natives: Natives)
    requires DrivingInvariant(routes)
    ensures var next := ConsiderAlternate(routes, path, i, option, natives);
            && DrivingInvariant(next) && routes <= next
            && |next| <= (if |routes| < 10 then 10 else |routes|)
  {
    var next := ConsiderAlternate(routes, path, i, option, natives);
    if next != routes {
      assert next[..|routes|] == routes;
      forall j | 0 <= j < |routes| ensures next[..j] == routes[..j] {
      }
    }
  }

  lemma {:induction false} AlternatesUpToKeeps(base: seq<RouteData>, paths: seq<ServicePath>, i: nat, option: StrategyOption, natives: Natives)
    requires 1 <= i <= |paths| && DrivingInvariant(base)
    ensures var r := AlternatesUpTo(base, paths, i, option, natives);
            && DrivingInvariant(r) && base <= r
            && |r| <= (if |base| < 10 then 10 else |base|)
  {
    if i > 1 {
      AlternatesUpToKeeps(base, paths, i - 1, option, natives);
      ConsiderAlternateKeeps(AlternatesUpTo(base, paths, i - 1, option, natives), paths[i - 1], i - 1, option, natives);
    }
  }

  /** The first path of a strategy, named after it, keeps the invariant. */
  lemma PrimaryKeeps(routes: seq<RouteData>, path: ServicePath, k: nat, natives: Natives)
    requires k < |Strategies| && DrivingInvariant(routes)
    ensures var option := Strategies[k];
            DrivingInvariant(routes + [DrivingRoute(path, |routes|, option.name, option.value, natives)])
  {
    var option := Strategies[k];
    var next := routes + [DrivingRoute(path, |routes|, option.name, option.value, natives)];
    assert IsStrategyName(next[|routes|].strategyName);
    forall j | 0 <= j < |routes| ensures next[..j] == routes[..j] {
    }
  }

  lemma AfterStrategyKeeps(routes: seq<RouteData>, k: nat, answer: RouteAnswer, natives: Natives)
    requires k < |Strategies| && DrivingInvariant(routes)
    ensures var r := AfterStrategy(routes, Strategies[k], answer, natives);
            && DrivingInvariant(r) && routes <= r
            && |r| <= (if |routes| < 10 then 10 else |routes| + 1)
  {
    var option := Strategies[k];
    if answer.Answered? && answer.paths.Some? && |answer.paths.value| > 0 {
      var paths := answer.paths.value;
      PrimaryKeeps(routes, paths[0], k, natives);
      var base := routes + [DrivingRoute(paths[0], |routes|, option.name, option.value, natives)];
      AlternatesUpToKeeps(base, paths, |paths|, option, natives);
    }
  }

  /** After `k` strategies: numbered, separated, at most `9 + k` routes, and extending every earlier state. */
  lemma {:induction false} DrivingAfterKeeps(k: nat, answers: DrivingStrategy -> RouteAnswer, natives: Natives)
    requires k <= |Strategies|
    ensures var r := DrivingAfter(k, answers, natives);
            DrivingInvariant(r) && |r| <= (if k == 0 then 0 else 9 + k)
  {
    if k > 0 {
      var prev := DrivingAfter(k - 1, answers, natives);
      DrivingAfterKeeps(k - 1, answers, natives);
      var option := Strategies[k - 1];
      AfterStrategyKeeps(prev, k - 1, answers(option.value), natives);
      assert DrivingAfter(k, answers, natives) == AfterStrategy(prev, option, answers(option.value), natives);
    }
  }

  /** Later strategies only append: the routes after `j` strategies start the routes after `k >= j`. */
  lemma {:induction false} DrivingAfterGrows(j: nat, k: nat, answers: DrivingStrategy -> RouteAnswer, natives: Natives)
    requires j <= k <= |Strategies|
    ensures DrivingAfter(j, answers, natives) <= DrivingAfter(k, answers, natives)
  {
    if j < k {
      DrivingAfterGrows(j, k - 1, answers, natives);
      DrivingAfterKeeps(k - 1, answers, natives);
      var option := Strategies[k - 1];
      AfterStrategyKeeps(DrivingAfter(k - 1, answers, natives), k - 1, answers(option.value), natives);
    }
  }

  /**
   * The driving routes are numbered from 0 with the matching colours, there
   * are at most fourteen of them, and each alternative is among the first
   * ten routes and is not within 500 m and 150 s of any route before it.
   */
  lemma DrivingRoutesProperties(answers: DrivingStrategy -> RouteAnswer, natives: Natives)
    ensures var r := DrivingRoutes(answers, natives);
            && |r| <= 14
            && (forall j :: 0 <= j < |r| ==> r[j].id == j && r[j].color == RouteColor(j))
            && (forall j, k, i ::
                  (0 <= j < |r| && 0 <= k < |Strategies| && i >= 1 &&
                   r[j].strategyName == AlternateName(Strategies[k].name, i)) ==>
                  j < 10 && forall m :: 0 <= m < j ==> !IsNear(r[m], r[j].distance, r[j].duration))
  {
    var r := DrivingRoutes(answers, natives);
    DrivingAfterKeeps(|Strategies|, answers, natives);
    forall j, k, i | 0 <= j < |r| && 0 <= k < |Strategies| && i >= 1 &&
                     r[j].strategyName == AlternateName(Strategies[k].name, i)
      ensures j < 10 && forall m :: 0 <= m < j ==> !IsNear(r[m], r[j].distance, r[j].duration)
    {
      AlternateNameNotStrategyName(k, i);
      forall m | 0 <= m < j ensures !IsNear(r[m], r[j].distance, r[j].duration) {
        assert r[..j][m] == r[m];
      }
    }
  }

  /** An alternative's name is never a strategy's own name: it is longer than all of them. */
  lemma AlternateNameNotStrategyName(k: nat, i: nat)
    requires k < |Strategies|
    ensures !IsStrategyName(AlternateName(Strategies[k].name, i))
  {
    var alt := AlternateName(Strategies[k].name, i);
    assert |alt| >= 6;
    forall m | 0 <= m < |Strategies| ensures Strategies[m].name != alt {
      assert |Strategies[m].name| <= 4;
    }
  }

  /** Every strategy whose request found a path is shown: its first path is among the driving routes. */
  lemma EveryAnsweringStrategyShown(answers: DrivingStrategy -> RouteAnswer, natives: Natives, k: nat)
    requires k < |Strategies|
    requires var answer := answers(Strategies[k].value);
             answer.Answered? && answer.paths.Some? && |answer.paths.value| > 0
    ensures var r := DrivingRoutes(answers, natives);
            var option := Strategies[k];
            var first := answers(option.value).paths.value[0];
            exists j :: 0 <= j < |r| && r[j] == DrivingRoute(first, j, option.name, option.value, natives)
  {
    var option := Strategies[k];
    var paths := answers(option.value).paths.value;
    var before := DrivingAfter(k, answers, natives);
    var base := before + [DrivingRoute(paths[0], |before|, option.name, option.value, natives)];
    AlternatesUpToKeeps(base, paths, |paths|, option, natives) by {
      DrivingAfterKeeps(k, answers, natives);
      PrimaryKeeps(before, paths[0], k, natives);
    }
    DrivingAfterGrows(k + 1, |Strategies|, answers, natives);
    var r := DrivingRoutes(answers, natives);
    assert DrivingAfter(k + 1, answers, natives) <= r;
    var j := |before|;
    assert j < |r| && r[j] == base[j];
    assert r[j] == DrivingRoute(paths[0], j, option.name, option.value, natives);
  }

  /** A strategy whose request threw or found nothing adds no route. */
  lemma FailedStrategyAddsNothing(routes: seq<RouteData>, option: StrategyOption, answer: RouteAnswer, natives: Natives)
    requires answer.Thrown? || answer.paths.None? || |answer.paths.value| == 0
    ensures AfterStrategy(routes, option, answer, natives) == routes
  {
  }

  // ---------------------------------------------------------------------------
  // Walking and cycling
  // ---------------------------------------------------------------------------

  /** The route built from the `index`-th walking or cycling path. */
  function PlanRoute(path: ServicePath, index: nat, duration: Number, natives: Natives): RouteData
  {
    RouteData(index, natives.parseInt(path.distance), duration, None, None, None, None,
              StepsPolyline(path.steps, natives.decodePolyline), PlanName(index), None, RouteColor(index), None)
  }

  /** `parseInt(path.cost?.duration || '0')`. */
  function WalkingDuration(path: ServicePath, natives: Natives): Number
  {
    natives.parseInt(OrElse(path.costDuration, "0"))
  }

  /** `parseInt(path.cost?.duration || path.duration || '0')`. */
  function CyclingDuration(path: ServicePath, natives: Natives): Number
  {
    natives.parseInt(OrElse(path.costDuration, OrElse(path.duration, "0")))
  }

  /**
   * `calculateWalkingRoutes`: one route per path, numbered from 0 and named
   * `推荐`, `方案2`, `方案3`, …; none when the answer has no paths. A
   * failed request is not caught here: None stands for the exception.
   */
  function WalkingRoutes(answer: RouteAnswer, natives: Natives): (routes: Option<seq<RouteData>>)
    ensures routes.None? <==> answer.Thrown?
    ensures answer.Answered? && answer.paths.None? ==> routes == Some([])
    ensures answer.Answered? && answer.paths.Some? ==>
              var paths := answer.paths.value;
              && |routes.value| == |paths|
              && forall i :: 0 <= i < |paths| ==>
                   routes.value[i].id == i && routes.value[i].strategyName == PlanName(i)
                   && routes.value[i].color == RouteColor(i)
                   && routes.value[i].duration == WalkingDuration(paths[i], natives)
                   && routes.value[i].distance == natives.parseInt(paths[i].distance)
                   && routes.value[i].polyline == StepsPolyline(paths[i].steps, natives.decodePolyline)
                   && routes.value[i].tolls.None? && routes.value[i].trafficLights.None?
                   && routes.value[i].transitFee.None? && routes.value[i].walkingDistance.None?
                   && routes.value[i].strategy.None? && routes.value[i].segments.None?
  {
    match answer
    case Thrown => None
    case Answered(None) => Some([])
    case Answered(Some(paths)) =>
      Some(seq(|paths|, i requires 0 <= i < |paths| => PlanRoute(paths[i], i, WalkingDuration(paths[i], natives), natives)))
  }

  /** What `calculateBicyclingRoutes` returns: a failed request, no paths or an empty list give no route. */
  function CyclingRoutes(answer: RouteAnswer, natives: Natives): (routes: seq<RouteData>)
    ensures answer.Thrown? || answer.paths.None? ==> routes == []
    ensures answer.Answered? && answer.paths.Some? ==>
              var paths := answer.paths.value;
              && |routes| == |paths|
              && forall i :: 0 <= i < |paths| ==>
                   routes[i].id == i && routes[i].strategyName == PlanName(i)
                   && routes[i].color == RouteColor(i)
                   && routes[i].duration == CyclingDuration(paths[i], natives)
                   && routes[i].distance == natives.parseInt(paths[i].distance)
                   && routes[i].polyline == StepsPolyline(paths[i].steps, natives.decodePolyline)
                   && routes[i].tolls.None? && routes[i].trafficLights.None?
                   && routes[i].transitFee.None? && routes[i].walkingDistance.None?
                   && routes[i].strategy.None? && routes[i].segments.None?
  {
    if answer.Thrown? || answer.paths.None? || |answer.paths.value| == 0 then []
    else
      var paths := answer.paths.value;
      seq(|paths|, i requires 0 <= i < |paths| => PlanRoute(paths[i], i, CyclingDuration(paths[i], natives), natives))
  }

  /** `calculateBicyclingRoutes`: one route per path, pushed in order. */
  method CalculateBicyclingRoutes(answer: RouteAnswer, natives: Natives) returns (allRoutes: seq<RouteData>)
    ensures allRoutes == CyclingRoutes(answer, natives)
  {
    if answer.Thrown? || answer.paths.None? || |answer.paths.value| == 0 {
      return [];
    }
    var paths := answer.paths.value;
    allRoutes := [];
    for index := 0 to |paths|
      invariant |allRoutes| == index
      invariant forall j :: 0 <= j < index ==>
                  allRoutes[j] == PlanRoute(paths[j], j, CyclingDuration(paths[j], natives), natives)
    {
      var path := paths[index];
      var distance := natives.parseInt(path.distance);
      var duration := natives.parseInt(OrElse(path.costDuration, OrElse(path.duration, "0")));
      assert duration == CyclingDuration(path, natives);
      allRoutes := allRoutes + [RouteData(index, distance, duration, None, None, None, None,
                                          StepsPolyline(path.steps, natives.decodePolyline),
                                          PlanName(index), None, RouteColor(index), None)];
    }
    ghost var expected := CyclingRoutes(answer, natives);
    assert |expected| == |allRoutes|;
    assert forall j :: 0 <= j < |paths| ==> expected[j] == allRoutes[j];
  }

  /**
   * Walking and cycling build the same routes from the same successful
   * answer whenever every path states its duration under `cost`.
   */
  lemma WalkingAndCyclingAgree(answer: RouteAnswer, natives: Natives)
    requires answer.Answered? && answer.paths.Some?
    requires forall i :: 0 <= i < |answer.paths.value| ==> OrElse(answer.paths.value[i].costDuration, "") != ""
    ensures WalkingRoutes(answer, natives) == Some(CyclingRoutes(answer, natives))
  {
    var paths := answer.paths.value;
    if |paths| > 0 {
      var walked := WalkingRoutes(answer, natives).value;
      var cycled := CyclingRoutes(answer, natives);
      forall i | 0 <= i < |paths| ensures walked[i] == cycled[i] {
        assert OrElse(paths[i].costDuration, "") == paths[i].costDuration.value;
        assert WalkingDuration(paths[i], natives) == CyclingDuration(paths[i], natives);
      }
      assert |walked| == |cycled|;
      assert walked == cycled;
    }
  }

  /** The cycling routes are numbered from 0, coloured in turn and named as distinct plans. */
  lemma CyclingRoutesNumbered(answer: RouteAnswer, natives: Natives)
    ensures var r := CyclingRoutes(answer, natives);
            && (answer.Answered? && answer.paths.Some? ==> |r| == |answer.paths.value|)
            && Numbered(r)
            && forall i, j :: 0 <= i < j < |r| ==> r[i].strategyName != r[j].strategyName
  {
    var r := CyclingRoutes(answer, natives);
    forall i, j | 0 <= i < j < |r| ensures r[i].strategyName != r[j].strategyName {
      PlanNamesDistinct(i, j);
    }
  }

  // ---------------------------------------------------------------------------
  // Transit
  // ---------------------------------------------------------------------------

  /** `lines?.forEach((l) => points.push(...parsePolyline(l.polyline)))`, as a value. */
  function LinePoints(lines: Option<seq<string>>, decode: string -> seq<Point>): seq<Point>
  {
    match lines
    case None => []
    case Some(ls) => FlatMap(ls, decode)
  }

  /** The points of one segment: its walking steps, then its bus lines, then its railway lines. */
  function SegmentPoints(segment: Segment, decode: string -> seq<Point>): seq<Point>
  {
    LinePoints(segment.walking, decode) + LinePoints(segment.bus, decode) + LinePoints(segment.railway, decode)
  }

  /** The points of a list of segments, in order. */
  function SegmentsPoints(segments: seq<Segment>, decode: string -> seq<Point>): seq<Point>
  {
    if segments == [] then []
    else SegmentsPoints(segments[..|segments| - 1], decode) + SegmentPoints(segments[|segments| - 1], decode)
  }

  lemma SegmentsPointsSnoc(segs: seq<Segment>, s: nat, decode: string -> seq<Point>)
    requires s < |segs|
    ensures SegmentsPoints(segs[..s + 1], decode) == SegmentsPoints(segs[..s], decode) + SegmentPoints(segs[s], decode)
  {
    assert segs[..s + 1][..s] == segs[..s];
  }

  /** The points of a transit plan: those of its segments, in order. */
  function TransitPoints(segments: Option<seq<Segment>>, decode: string -> seq<Point>): seq<Point>
  {
    match segments
    case None => []
    case Some(segs) => SegmentsPoints(segs, decode)
  }

  /** What `processTransitRoute` returns: null for a null transit, else a route over all its segments' points. */
  function TransitRouteOf(transit: Option<Transit>, id: nat, name: string, natives: Natives): (route: Option<RouteData>)
    ensures route.None? <==> transit.None?
    ensures route.Some? ==>
              && route.value.id == id && route.value.strategyName == name && route.value.color == RouteColor(id)
              && route.value.segments == transit.value.segments && route.value.strategy.None?
    ensures route.Some? ==>
              var t := transit.value;
              && route.value.distance == natives.parseInt(t.distance)
              && route.value.duration == natives.parseInt(OrElse(t.costDuration, "0"))
              && route.value.tolls.None? && route.value.trafficLights.None?
              && route.value.transitFee == Some(OrElse(t.transitFee, "0"))
              && route.value.walkingDistance == Some(natives.parseInt(OrElse(t.walkingDistance, "0")))
              && route.value.polyline == TransitPoints(t.segments, natives.decodePolyline)
  {
    match transit
    case None => None
    case Some(t) =>
      Some(RouteData(
        id,
        natives.parseInt(t.distance),
        natives.parseInt(OrElse(t.costDuration, "0")),
        None,
        None,
        Some(OrElse(t.transitFee, "0")),
        Some(natives.parseInt(OrElse(t.walkingDistance, "0"))),
        TransitPoints(t.segments, natives.decodePolyline),
        name,
        None,
        RouteColor(id),
        t.segments))
  }

  /** Pushes the decoded points of each line, in order. */
  method PushLinePoints(points: seq<Point>, lines: Option<seq<string>>, decode: string -> seq<Point>)
    returns (out: seq<Point>)
    ensures out == points + LinePoints(lines, decode)
  {
    out := points;
    if lines.Some? {
      var ls := lines.value;
      for j := 0 to |ls|
        invariant out == points + FlatMap(ls[..j], decode)
      {
        assert ls[..j + 1][..j] == ls[..j];
        out := out + decode(ls[j]);
      }
      assert ls[..|ls|] == ls;
    }
  }

  /** Regrouping four appended point lists (a generic step that keeps the loop below cheap to check). */
  lemma AppendThree(p: seq<Point>, a: seq<Point>, b: seq<Point>, c: seq<Point>)
    ensures p + a + b + c == p + (a + b + c)
  {
  }

  /** The segment loop of `processTransitRoute`: walking, bus and railway points of each segment in turn. */
  method CollectSegmentPoints(segments: Option<seq<Segment>>, decode: string -> seq<Point>)
    returns (allPoints: seq<Point>)
    ensures allPoints == TransitPoints(segments, decode)
  {
    allPoints := [];
    if segments.Some? {
      var segs := segments.value;
      for s := 0 to |segs|
        invariant allPoints == SegmentsPoints(segs[..s], decode)
      {
        var segment := segs[s];
        ghost var before := allPoints;
        allPoints := PushLinePoints(allPoints, segment.walking, decode);
        allPoints := PushLinePoints(allPoints, segment.bus, decode);
        allPoints := PushLinePoints(allPoints, segment.railway, decode);
        AppendThree(before, LinePoints(segment.walking, decode), LinePoints(segment.bus, decode),
                    LinePoints(segment.railway, decode));
        SegmentsPointsSnoc(segs, s, decode);
      }
      assert segs[..|segs|] == segs;
    }
  }

  /** `processTransitRoute`: the points of the walking, bus and railway parts of every segment, in order. */
  method ProcessTransitRoute(transit: Option<Transit>, id: nat, strategyName: string, natives: Natives)
    returns (route: Option<RouteData>)
    ensures route == TransitRouteOf(transit, id, strategyName, natives)
  {
    if transit.None? {
      return None;
    }
    var t := transit.value;
    var allPoints := CollectSegmentPoints(t.segments, natives.decodePolyline);
    route := Some(RouteData(
      id,
      natives.parseInt(t.distance),
      natives.parseInt(OrElse(t.costDuration, "0")),
      None,
      None,
      Some(OrElse(t.transitFee, "0")),
      Some(natives.parseInt(OrElse(t.walkingDistance, "0"))),
      allPoints,
      strategyName,
      None,
      RouteColor(id),
      t.segments));
  }

  /** The result of `processTransitRoute` for every plan, with its index and plan name. */
  function PlanRoutes(transits: seq<Option<Transit>>, natives: Natives): seq<Option<RouteData>>
  {
    seq(|transits|, i requires 0 <= i < |transits| => TransitRouteOf(transits[i], i, PlanName(i), natives))
  }

  /** The non-null entries, in order. */
  function Present(plans: seq<Option<RouteData>>): seq<RouteData>
  {
    if plans == [] then []
    else
      var last := plans[|plans| - 1];
      Present(plans[..|plans| - 1]) + (if last.Some? then [last.value] else [])
  }

  /** Number of non-null entries. */
  function SomeCount<T>(xs: seq<Option<T>>): nat
  {
    if xs == [] then 0 else SomeCount(xs[..|xs| - 1]) + (if xs[|xs| - 1].Some? then 1 else 0)
  }

  /** What `calculateTransitRoutes` returns: a failed request, no plans or an empty list give no route. */
  function TransitRoutes(answer: TransitAnswer, natives: Natives): (routes: seq<RouteData>)
    ensures |routes| == (if answer.TransitAnswered? && answer.transits.Some? then SomeCount(answer.transits.value) else 0)
    ensures forall i, j :: 0 <= i < j < |routes| ==> routes[i].id < routes[j].id
  {
    if answer.TransitThrown? || answer.transits.None? then []
    else
      var transits := answer.transits.value;
      var plans := PlanRoutes(transits, natives);
      SomeCountOfPlans(transits, natives);
      PresentCount(plans);
      PresentOrdered(plans);
      if |transits| == 0 then [] else Present(plans)
  }

  lemma PresentSnoc(plans: seq<Option<RouteData>>, k: nat)
    requires k < |plans|
    ensures Present(plans[..k + 1]) == Present(plans[..k]) + (if plans[k].Some? then [plans[k].value] else [])
  {
    assert plans[..k + 1][..k] == plans[..k];
  }

  /** `calculateTransitRoutes`: each plan processed with its index and plan name, null results skipped. */
  method CalculateTransitRoutes(answer: TransitAnswer, natives: Natives) returns (allRoutes: seq<RouteData>)
    ensures allRoutes == TransitRoutes(answer, natives)
  {
    if answer.TransitThrown? || answer.transits.None? || |answer.transits.value| == 0 {
      return [];
    }
    var transits := answer.transits.value;
    ghost var plans := PlanRoutes(transits, natives);
    allRoutes := [];
    for index := 0 to |transits|
      invariant allRoutes == Present(plans[..index])
    {
      var routeData := ProcessTransitRoute(transits[index], index, PlanName(index), natives);
      assert routeData == plans[index];
      if routeData.Some? {
        allRoutes := allRoutes + [routeData.value];
      }
      PresentSnoc(plans, index);
    }
    assert plans[..|transits|] == plans;
  }

  /** Entry `i`, when present, is numbered `i`. */
  predicate IndexedPlans(plans: seq<Option<RouteData>>)
  {
    forall i :: 0 <= i < |plans| && plans[i].Some? ==> plans[i].value.id == i
  }

  /** One route per non-null entry. */
  lemma {:induction false} PresentCount(plans: seq<Option<RouteData>>)
    ensures |Present(plans)| == SomeCount(plans)
  {
    if plans != [] {
      PresentCount(plans[..|plans| - 1]);
    }
  }

  /** Each route is the entry at the index its id names. */
  lemma {:induction false} PresentFromPlans(plans: seq<Option<RouteData>>)
    requires IndexedPlans(plans)
    ensures var r := Present(plans);
            forall j :: 0 <= j < |r| ==> r[j].id < |plans| && plans[r[j].id] == Some(r[j])
  {
    if plans != [] {
      var init := plans[..|plans| - 1];
      var last := plans[|plans| - 1];
      assert IndexedPlans(init) by {
        forall i | 0 <= i < |init| && init[i].Some? ensures init[i].value.id == i {
          assert init[i] == plans[i];
        }
      }
      PresentFromPlans(init);
      var rest := Present(init);
      assert forall j :: 0 <= j < |rest| ==> rest[j].id < |init| && init[rest[j].id] == Some(rest[j]) by {
        assert forall j :: 0 <= j < |Present(init)| ==>
          Present(init)[j].id < |init| && init[Present(init)[j].id] == Some(Present(init)[j]);
      }
      var r := rest + (if last.Some? then [last.value] else []);
      forall j | 0 <= j < |r| ensures r[j].id < |plans| && plans[r[j].id] == Some(r[j]) {
        if j < |rest| {
          assert r[j] == rest[j];
          assert plans[rest[j].id] == init[rest[j].id];
        }
      }
    }
  }

  /** The ids strictly increase. */
  lemma {:induction false} PresentOrdered(plans: seq<Option<RouteData>>)
    requires IndexedPlans(plans)
    ensures var r := Present(plans);
            forall i, j :: 0 <= i < j < |r| ==> r[i].id < r[j].id
  {
    if plans != [] {
      var init := plans[..|plans| - 1];
      var last := plans[|plans| - 1];
      assert IndexedPlans(init) by {
        forall i | 0 <= i < |init| && init[i].Some? ensures init[i].value.id == i {
          assert init[i] == plans[i];
        }
      }
      PresentOrdered(init);
      PresentFromPlans(init);
      var rest := Present(init);
      assert forall j :: 0 <= j < |rest| ==> rest[j].id < |init| by {
        assert forall j :: 0 <= j < |Present(init)| ==> Present(init)[j].id < |init|;
      }
      assert forall i, j :: 0 <= i < j < |rest| ==> rest[i].id < rest[j].id by {
        assert forall i, j :: 0 <= i < j < |Present(init)| ==> Present(init)[i].id < Present(init)[j].id;
      }
      if last.Some? {
        var r := rest + [last.value];
        assert last.value.id == |init|;
        forall i, j | 0 <= i < j < |r| ensures r[i].id < r[j].id {
          assert r[i] == rest[i];
          if j < |rest| {
            assert r[j] == rest[j];
          }
        }
      }
    }
  }

  lemma {:induction false} SomeCountOfPlans(transits: seq<Option<Transit>>, natives: Natives)
    ensures SomeCount(PlanRoutes(transits, natives)) == SomeCount(transits)
  {
    if transits != [] {
      var n := |transits| - 1;
      SomeCountOfPlans(transits[..n], natives);
      assert PlanRoutes(transits, natives)[..n] == PlanRoutes(transits[..n], natives);
    }
  }

  /**
   * The transit routes: one per non-null plan, in plan order; each is the
   * route of the plan at the index its id names, with that plan's name, so
   * the ids strictly increase.
   */
  lemma TransitRoutesProperties(answer: TransitAnswer, natives: Natives)
    requires answer.TransitAnswered? && answer.transits.Some?
    ensures var transits := answer.transits.value;
            var r := TransitRoutes(answer, natives);
            && |r| == SomeCount(transits)
            && (forall j :: 0 <= j < |r| ==>
                  r[j].id < |transits| && TransitRouteOf(transits[r[j].id], r[j].id, PlanName(r[j].id), natives) == Some(r[j]))
            && (forall i, j :: 0 <= i < j < |r| ==> r[i].id < r[j].id)
  {
    var transits := answer.transits.value;
    var plans := PlanRoutes(transits, natives);
    SomeCountOfPlans(transits, natives);
    if |transits| > 0 {
      PresentCount(plans);
      PresentFromPlans(plans);
      PresentOrdered(plans);
    }
  }

  // ---------------------------------------------------------------------------
  // The hook's state
  // ---------------------------------------------------------------------------

  /** The routes the try block of `calculateRoute` produces; None when the request throws. */
  function PlannedRoutes(routeType: RouteType, answers: Answers, natives: Natives): (routes: Option<seq<RouteData>>)
    ensures routeType != Walking ==> routes.Some?
  {
    match routeType
    case Driving => Some(DrivingRoutes(answers.driving, natives))
    case Walking => WalkingRoutes(answers.walking, natives)
    case Bicycling => Some(CyclingRoutes(answers.bicycling, natives))
    case TransitRoute => Some(TransitRoutes(answers.transit, natives))
  }

  /** The value `calculateRoute` returns: the planned routes, or null when there are none or the request threw. */
  function RouteResult(routeType: RouteType, answers: Answers, natives: Natives): (result: Option<seq<RouteData>>)
    ensures result.Some? ==> |result.value| > 0 && result == PlannedRoutes(routeType, answers, natives)
    ensures result.Some? <==> var p := PlannedRoutes(routeType, answers, natives); p.Some? && |p.value| > 0
  {
    var planned := PlannedRoutes(routeType, answers, natives);
    if planned.None? || |planned.value| == 0 then None else planned
  }

  /** The state of `useRoutePlanning(api)`; `apiReady` says whether `api` was non-null. */
  class RoutePlanner {
    const apiReady: bool
    var isCalculating: bool
    var allRoutes: seq<RouteData>
    var routeType: RouteType

    constructor (apiReady: bool)
      ensures this.apiReady == apiReady
      ensures !isCalculating && allRoutes == [] && routeType == Driving
    {
      this.apiReady := apiReady;
      isCalculating := false;
      allRoutes := [];
      routeType := Driving;
    }

    method SetRouteType(routeType: RouteType)
      modifies this
      ensures this.routeType == routeType
      ensures isCalculating == old(isCalculating) && allRoutes == old(allRoutes)
    {
      this.routeType := routeType;
    }

    /**
     * `calculateRoute`: without an API nothing changes and null is returned.
     * Otherwise the routes of the selected kind are computed; when there are
     * some they replace the routes on show and are returned, else (none
     * found, or the request threw) the routes on show stay and null is
     * returned. The calculating flag is cleared at the end either way.
     */
    method CalculateRoute(answers: Answers, natives: Natives) returns (result: Option<seq<RouteData>>)
      modifies this
      ensures !apiReady ==>
                result.None? && isCalculating == old(isCalculating) && allRoutes == old(allRoutes)
      ensures apiReady ==> !isCalculating && result == RouteResult(routeType, answers, natives)
      ensures apiReady ==> allRoutes == (if result.Some? then result.value else old(allRoutes))
      ensures routeType == old(routeType)
    {
      if !apiReady {
        return None;
      }
      isCalculating := true;
      var routes: seq<RouteData> := [];
      var threw := false;
      match routeType {
        case Driving =>
          routes := CalculateDrivingRoutes(answers.driving, natives);
        case Walking =>
          var walked := WalkingRoutes(answers.walking, natives);
          if walked.None? {
            threw := true;
          } else {
            routes := walked.value;
          }
        case Bicycling =>
          routes := CalculateBicyclingRoutes(answers.bicycling, natives);
        case TransitRoute =>
          routes := CalculateTransitRoutes(answers.transit, natives);
      }
      if threw || |routes| == 0 {
        result := None;
      } else {
        allRoutes := routes;
        result := Some(routes);
      }
      isCalculating := false;
    }

    method ClearRoutes()
      modifies this
      ensures allRoutes == []
      ensures isCalculating == old(isCalculating) && routeType == old(routeType)
    {
      allRoutes := [];
    }
  }

  /** A returned result holds at least one route, and it is the list of the selected kind. */
  lemma ResultIsSelectedKind(routeType: RouteType, answers: Answers, natives: Natives)
    requires RouteResult(routeType, answers, natives).Some?
    ensures var routes := RouteResult(routeType, answers, natives).value;
            && |routes| >= 1
            && (routeType == Driving ==> routes == DrivingRoutes(answers.driving, natives))
            && (routeType == Walking ==> Some(routes) == WalkingRoutes(answers.walking, natives))
            && (routeType == Bicycling ==> routes == CyclingRoutes(answers.bicycling, natives))
            && (routeType == TransitRoute ==> routes == TransitRoutes(answers.transit, natives))
  {
  }
}

=== FILE: route_utils.dfy ===
/**
 * The route helpers of `utils/routeUtils.ts`: decoding an AMap polyline
 * string, down-sampling a path by a fixed index stride, the cyclic route
 * palette, the distance and duration labels, and the bounding box and
 * centre of a path.
 */
module RouteUtils {
  import opened Wrappers
  import opened JsNumber
  import opened JsText

  /** A map coordinate. */
  datatype Point = Point(latitude: real, longitude: real)

  // ---------------------------------------------------------------------------
  // parsePolyline
  // ---------------------------------------------------------------------------

  /**
   * One `lng,lat` segment: `point.split(',').map(Number)` destructured into
   * `[lng, lat]`. A segment without a comma leaves `lat` undefined, which
   * `isNaN` rejects just like a NaN field; fields after the second are ignored.
   * `toNumber` is JavaScript's `Number` applied to one field.
   */
  function SegmentPoint(segment: string, toNumber: string -> Number): (p: Option<Point>)
    ensures ',' !in segment ==> p.None?
    ensures (|Split(segment, ',')| >= 2 && toNumber(Split(segment, ',')[0]).Finite?
             && toNumber(Split(segment, ',')[1]).Finite?) ==> p.Some?
    ensures p.Some? ==>
              && ',' in segment && |Split(segment, ',')| >= 2
              && toNumber(Split(segment, ',')[0]) == Finite(p.value.longitude)
              && toNumber(Split(segment, ',')[1]) == Finite(p.value.latitude)
  {
    var fields := Split(segment, ',');
    OccurrencesPositive(segment, ',');
    if |fields| < 2 then None
    else match (toNumber(fields[0]), toNumber(fields[1]))
      case (Finite(lng), Finite(lat)) => Some(Point(lat, lng))
      case _ => None
  }

  /** The points of the segments that decode, in segment order. */
  function SegmentPoints(segments: seq<string>, toNumber: string -> Number): (points: seq<Point>)
    ensures |points| <= |segments|
  {
    if segments == [] then []
    else
      var head := match SegmentPoint(segments[0], toNumber)
        case Some(p) => [p]
        case None => [];
      head + SegmentPoints(segments[1..], toNumber)
  }

  /** `parsePolyline`: undefined or empty text gives no points; otherwise every `;`-separated segment that decodes. */
  function ParsePolyline(text: Option<string>, toNumber: string -> Number): (points: seq<Point>)
    ensures text.None? || text == Some("") ==> points == []
    ensures text.Some? ==> |points| <= Occurrences(text.value, ';') + 1
  {
    if text.None? || text.value == "" then []
    else SegmentPoints(Split(text.value, ';'), toNumber)
  }

  /** Decoding distributes over concatenation: the output keeps segment order. */
  lemma {:induction false} SegmentPointsAppend(a: seq<string>, b: seq<string>, toNumber: string -> Number)
    ensures SegmentPoints(a + b, toNumber) == SegmentPoints(a, toNumber) + SegmentPoints(b, toNumber)
  {
    if a != [] {
      assert (a + b)[1..] == a[1..] + b;
      SegmentPointsAppend(a[1..], b, toNumber);
    } else {
      assert a + b == b;
    }
  }

  /** A point is in the output exactly when some segment decodes to it. */
  lemma {:induction false} SegmentPointsMember(segments: seq<string>, toNumber: string -> Number, p: Point)
    ensures p in SegmentPoints(segments, toNumber) <==>
            exists i :: 0 <= i < |segments| && SegmentPoint(segments[i], toNumber) == Some(p)
  {
    if segments != [] {
      SegmentPointsMember(segments[1..], toNumber, p);
      if exists i :: 0 <= i < |segments| && SegmentPoint(segments[i], toNumber) == Some(p) {
        var i :| 0 <= i < |segments| && SegmentPoint(segments[i], toNumber) == Some(p);
        if i > 0 {
          assert segments[1..][i - 1] == segments[i];
        }
      }
      if exists i :: 0 <= i < |segments[1..]| && SegmentPoint(segments[1..][i], toNumber) == Some(p) {
        var i :| 0 <= i < |segments[1..]| && SegmentPoint(segments[1..][i], toNumber) == Some(p);
        assert segments[i + 1] == segments[1..][i];
      }
    }
  }

  /** No segment is dropped exactly when every segment decodes. */
  lemma {:induction false} SegmentPointsKeepsAll(segments: seq<string>, toNumber: string -> Number)
    ensures |SegmentPoints(segments, toNumber)| == |segments| <==>
            forall i :: 0 <= i < |segments| ==> SegmentPoint(segments[i], toNumber).Some?
  {
    if segments != [] {
      SegmentPointsKeepsAll(segments[1..], toNumber);
      if forall i :: 0 <= i < |segments[1..]| ==> SegmentPoint(segments[1..][i], toNumber).Some? {
        forall i | 0 < i < |segments| ensures SegmentPoint(segments[i], toNumber).Some? {
          assert segments[i] == segments[1..][i - 1];
        }
      }
    }
  }

  /** A segment is read longitude first: `lng,lat` decodes to latitude `lat`, longitude `lng`. */
  lemma LongitudeFirst(lng: string, lat: string, toNumber: string -> Number)
    requires ',' !in lng && ',' !in lat && ';' !in lng && ';' !in lat
    requires toNumber(lng).Finite? && toNumber(lat).Finite?
    ensures ParsePolyline(Some(lng + "," + lat), toNumber) ==
            [Point(toNumber(lat).val, toNumber(lng).val)]
  {
    var text := lng + "," + lat;
    assert Join([lng, lat], ',') == text;
    SplitJoin([lng, lat], ',');
    assert Join([text], ';') == text;
    assert ';' !in text by {
      assert text == lng + ([','] + lat);
    }
    SplitJoin([text], ';');
  }

  /** A polyline written as `;`-joined segments decodes segment by segment. */
  lemma PolylineOfSegments(segments: seq<string>, toNumber: string -> Number)
    requires |segments| >= 1
    requires forall i :: 0 <= i < |segments| ==> ';' !in segments[i]
    ensures ParsePolyline(Some(Join(segments, ';')), toNumber) == SegmentPoints(segments, toNumber)
  {
    SplitJoin(segments, ';');
    if Join(segments, ';') == "" {
      assert Split("", ';') == [""];
      assert segments == [""];
      assert Split("", ',') == [""];
    }
  }

  // ---------------------------------------------------------------------------
  // simplifyPath
  // ---------------------------------------------------------------------------

  /** `k·step`, written as repeated addition so that proofs about strides stay linear. */
  function Times(k: nat, step: nat): nat
  {
    if k == 0 then 0 else Times(k - 1, step) + step
  }

  lemma {:induction false} TimesIsProduct(k: nat, step: nat)
    ensures Times(k, step) == k * step
  {
    if k > 0 {
      TimesIsProduct(k - 1, step);
    }
  }

  lemma {:induction false} TimesMonotone(j: nat, k: nat, step: nat)
    requires j <= k
    ensures Times(j, step) <= Times(k, step)
    ensures step >= 1 && j < k ==> Times(j, step) < Times(k, step)
  {
    if j < k {
      TimesMonotone(j, k - 1, step);
    }
  }

  /** `Math.floor(a / d)` for naturals, written as repeated subtraction. */
  function Quotient(a: nat, d: nat): nat
    requires d >= 1
    decreases a
  {
    if a < d then 0 else 1 + Quotient(a - d, d)
  }

  /** The quotient is the number of whole `d`s in `a`. */
  lemma {:induction false} QuotientBounds(a: nat, d: nat)
    requires d >= 1
    ensures Times(Quotient(a, d), d) <= a < Times(Quotient(a, d) + 1, d)
  {
    if a >= d {
      QuotientBounds(a - d, d);
    }
  }

  /** ... so it is `Math.floor(a / d)`: the largest `q` with `q·d <= a`. */
  lemma QuotientIsFloor(a: nat, d: nat)
    requires d >= 1
    ensures Quotient(a, d) * d <= a < Quotient(a, d) * d + d
  {
    var q := Quotient(a, d);
    QuotientBounds(a, d);
    TimesIsProduct(q, d);
    TimesIsProduct(q + 1, d);
  }

  /**
   * The stride `Math.floor(n / maxPoints)`. For `maxPoints = 0` JavaScript
   * computes Infinity; a stride of `n` has the same effect (no interior point).
   */
  function Stride(n: nat, maxPoints: nat): (step: nat)
    requires n > maxPoints
    ensures step >= 1
  {
    if maxPoints == 0 then n else Quotient(n, maxPoints)
  }

  /** How many multiples `step, 2·step, …` lie below `n - 1`. */
  function InteriorCount(n: nat, step: nat): nat
    requires step >= 1
  {
    if n >= 2 then Quotient(n - 2, step) else 0
  }

  /** The last interior multiple is at most `n - 2`; the next one is beyond it. */
  lemma InteriorCountBounds(n: nat, step: nat)
    requires n >= 2 && step >= 1
    ensures Times(InteriorCount(n, step), step) <= n - 2 < Times(InteriorCount(n, step) + 1, step)
  {
    QuotientBounds(n - 2, step);
  }

  /** The number of multiples of `step` in `1..n-2` is the only count with those bounds. */
  lemma InteriorCountUnique(n: nat, step: nat, c: nat)
    requires step >= 1 && n >= 1
    requires c == 0 || Times(c, step) <= n - 2
    requires n - 1 <= Times(c + 1, step)
    ensures c == InteriorCount(n, step)
  {
    if n >= 2 {
      var d := InteriorCount(n, step);
      InteriorCountBounds(n, step);
      if c < d {
        TimesMonotone(c + 1, d, step);
      }
      if c > d {
        TimesMonotone(d + 1, c, step);
      }
    }
  }

  lemma InteriorBelow(n: nat, step: nat, k: nat)
    requires step >= 1 && 1 <= k <= InteriorCount(n, step)
    ensures Times(k, step) <= n - 2
  {
    InteriorCountBounds(n, step);
    TimesMonotone(k, InteriorCount(n, step), step);
  }

  /** Index into the input of the `k`-th point of a strided sample. */
  function SampleIndex(n: nat, step: nat, k: nat): nat
    requires step >= 1
  {
    if k == 0 then 0 else if k <= InteriorCount(n, step) then Times(k, step) else if n == 0 then 0 else n - 1
  }

  /** The indices a strided sample picks are strictly increasing (for at least two points). */
  lemma SampleIndexIncreasing(n: nat, step: nat, j: nat, k: nat)
    requires n >= 2 && step >= 1 && j < k < InteriorCount(n, step) + 2
    ensures SampleIndex(n, step, j) < SampleIndex(n, step, k) < n
  {
    var count := InteriorCount(n, step);
    if k <= count {
      TimesMonotone(j, k, step);
      InteriorBelow(n, step, k);
    } else if 1 <= j {
      InteriorBelow(n, step, j);
    }
  }

  lemma SampleIndexBelow(n: nat, step: nat, k: nat)
    requires n >= 1 && step >= 1 && k < InteriorCount(n, step) + 2
    ensures SampleIndex(n, step, k) < n
  {
    if 1 <= k <= InteriorCount(n, step) {
      InteriorBelow(n, step, k);
    }
  }

  /** The first point, then the points at indices `step, 2·step, …` below `n - 1`, then the last point. */
  function StridedSample(points: seq<Point>, step: nat): (r: seq<Point>)
    requires |points| >= 1 && step >= 1
    ensures |r| == InteriorCount(|points|, step) + 2
  {
    var n := |points|;
    seq(InteriorCount(n, step) + 2, k requires 0 <= k < InteriorCount(n, step) + 2 =>
          SampleIndexBelow(n, step, k); points[SampleIndex(n, step, k)])
  }

  /** `prefix` holds the first point, then the points at `step, 2·step, …`, all below the last index. */
  predicate StridePrefix(points: seq<Point>, step: nat, prefix: seq<Point>)
  {
    && |points| >= 1 && |prefix| >= 1 && prefix[0] == points[0]
    && forall k :: 1 <= k < |prefix| ==>
         Times(k, step) <= |points| - 2 && prefix[k] == points[Times(k, step)]
  }

  /** The next multiple of the stride, when it is below the last index, extends the prefix. */
  lemma StridePrefixExtend(points: seq<Point>, step: nat, prefix: seq<Point>)
    requires StridePrefix(points, step, prefix) && Times(|prefix|, step) <= |points| - 2
    ensures StridePrefix(points, step, prefix + [points[Times(|prefix|, step)]])
  {
  }

  /** A stride prefix whose next multiple reaches the last index, plus the last point, is the strided sample. */
  lemma StridedSampleOfPrefix(points: seq<Point>, step: nat, prefix: seq<Point>)
    requires step >= 1 && StridePrefix(points, step, prefix)
    requires |points| - 1 <= Times(|prefix|, step)
    ensures prefix + [points[|points| - 1]] == StridedSample(points, step)
  {
    InteriorCountUnique(|points|, step, |prefix| - 1);
  }

  /** What `simplifyPath(points, maxPoints)` returns. */
  function Sampled(points: seq<Point>, maxPoints: nat): (r: seq<Point>)
    ensures points != [] ==> |r| >= 1 && r[0] == points[0] && r[|r| - 1] == points[|points| - 1]
    ensures points == [] ==> r == []
  {
    if |points| <= maxPoints then points
    else StridedSample(points, Stride(|points|, maxPoints))
  }

  /**
   * `simplifyPath`: a path of at most `maxPoints` points is returned as it
   * is; a longer one is reduced to its first point, every `step`-th point
   * below the last index, and its last point.
   */
  method SimplifyPath(points: seq<Point>, maxPoints: nat) returns (simplified: seq<Point>)
    ensures simplified == Sampled(points, maxPoints)
  {
    if |points| <= maxPoints {
      return points;
    }
    var n := |points|;
    var step := Stride(n, maxPoints);
    simplified := [points[0]];
    var i := step;
    while i < n - 1
      invariant StridePrefix(points, step, simplified) && i == Times(|simplified|, step)
    {
      StridePrefixExtend(points, step, simplified);
      simplified := simplified + [points[i]];
      i := i + step;
    }
    StridedSampleOfPrefix(points, step, simplified);
    assert Sampled(points, maxPoints) == StridedSample(points, step);
    simplified := simplified + [points[n - 1]];
  }

  /**
   * A down-sampled path starts with the first point, ends with the last,
   * and is an ordered subsequence of the input: its `k`-th point is the
   * input point at index `SampleIndex(n, step, k)`, and these indices
   * strictly increase (for at least two points).
   */
  lemma SampledIsOrderedSubsequence(points: seq<Point>, maxPoints: nat)
    requires |points| > maxPoints
    ensures var r := Sampled(points, maxPoints);
            var step := Stride(|points|, maxPoints);
            && |r| >= 2 && r[0] == points[0] && r[|r| - 1] == points[|points| - 1]
            && (forall k :: 0 <= k < |r| ==>
                  SampleIndex(|points|, step, k) < |points| && r[k] == points[SampleIndex(|points|, step, k)])
            && (|points| >= 2 ==> forall j, k :: 0 <= j < k < |r| ==>
                  SampleIndex(|points|, step, j) < SampleIndex(|points|, step, k))
  {
    var n := |points|;
    var step := Stride(n, maxPoints);
    var r := Sampled(points, maxPoints);
    var count := InteriorCount(n, step);
    forall k | 0 <= k < |r|
      ensures SampleIndex(n, step, k) < n && r[k] == points[SampleIndex(n, step, k)]
    {
      if 1 <= k <= count {
        InteriorBelow(n, step, k);
      }
    }
    if n >= 2 {
      forall j, k | 0 <= j < k < |r|
        ensures SampleIndex(n, step, j) < SampleIndex(n, step, k)
      {
        SampleIndexIncreasing(n, step, j, k);
      }
    }
  }

  /**
   * The interior points are exactly the multiples of the stride below the
   * last index: every kept interior index `k·step` is below `n - 1`, and the
   * next multiple after the last kept one is at least `n - 1`.
   */
  lemma SampledInteriorIsStride(points: seq<Point>, maxPoints: nat)
    requires |points| > maxPoints
    ensures var r := Sampled(points, maxPoints);
            var n, step := |points|, Stride(|points|, maxPoints);
            && (forall k :: 1 <= k < |r| - 1 ==> Times(k, step) < n - 1 && r[k] == points[Times(k, step)])
            && Times(|r| - 1, step) >= n - 1
  {
    var n := |points|;
    var step := Stride(n, maxPoints);
    var r := Sampled(points, maxPoints);
    assert r == StridedSample(points, step);
    forall k | 1 <= k < |r| - 1 ensures Times(k, step) < n - 1 && r[k] == points[Times(k, step)] {
      InteriorBelow(n, step, k);
      assert SampleIndex(n, step, k) == Times(k, step);
    }
    if n >= 2 {
      InteriorCountBounds(n, step);
    }
  }

  /**
   * As written, the stride gives no reduction at all for a path between
   * `maxPoints` and `2·maxPoints` points long: the stride is 1.
   */
  lemma SampledNoReduction(points: seq<Point>, maxPoints: nat)
    requires maxPoints < |points| < 2 * maxPoints
    ensures Sampled(points, maxPoints) == points
  {
    var n := |points|;
    assert Quotient(n - maxPoints, maxPoints) == 0;
    assert Stride(n, maxPoints) == 1;
    QuotientIsFloor(n - 2, 1);
    var r := Sampled(points, maxPoints);
    assert |r| == n;
    forall k | 0 <= k < n ensures r[k] == points[k] {
      TimesIsProduct(k, 1);
    }
  }

  /** The call in the navigation screen, `simplifyPath(fullPath, 150)`, returns all 299 points of a 299-point path. */
  lemma SampledExceedsMax(points: seq<Point>)
    requires |points| == 299
    ensures |Sampled(points, 150)| == 299 > 150
  {
    SampledNoReduction(points, 150);
  }

  /**
   * Corrected stride: `ceil((n - 1) / (maxPoints - 1))` keeps the sample
   * within `maxPoints` points; with fewer than two points allowed, only the
   * two end points are kept.
   */
  function BoundedStride(n: nat, maxPoints: nat): (step: nat)
    requires n > maxPoints
    ensures step >= 1
  {
    if maxPoints >= 2 then Quotient(n - 2, maxPoints - 1) + 1 else n
  }

  /** The down-sampling with the corrected stride. */
  function BoundedSample(points: seq<Point>, maxPoints: nat): seq<Point>
  {
    if |points| <= maxPoints then points
    else StridedSample(points, BoundedStride(|points|, maxPoints))
  }

  /** The corrected sample never has more than `maxPoints` points (two, when fewer are asked for). */
  lemma BoundedSampleWithinMax(points: seq<Point>, maxPoints: nat)
    ensures |BoundedSample(points, maxPoints)| <= if maxPoints >= 2 then maxPoints else 2
    ensures |points| > maxPoints ==> var r := BoundedSample(points, maxPoints);
              r[0] == points[0] && r[|r| - 1] == points[|points| - 1]
  {
    var n := |points|;
    if n > maxPoints && maxPoints >= 2 {
      BoundedInteriorCount(n, maxPoints);
    }
  }

  /** With the corrected stride, at most `maxPoints - 2` interior multiples lie below the last index. */
  lemma BoundedInteriorCount(n: nat, maxPoints: nat)
    requires n > maxPoints >= 2
    ensures InteriorCount(n, BoundedStride(n, maxPoints)) <= maxPoints - 2
  {
    var step := BoundedStride(n, maxPoints);
    var c := InteriorCount(n, step);
    var m := maxPoints - 1;
    QuotientBounds(n - 2, m);
    QuotientBounds(n - 2, step);
    if c >= m {
      TimesMonotone(m, c, step);
      TimesIsProduct(m, step);
      TimesIsProduct(step, m);
    }
  }

  // ---------------------------------------------------------------------------
  // generateRouteColor
  // ---------------------------------------------------------------------------

  /** The eight route colours, in order. */
  const Palette: seq<string> :=
    ["#2196F3", "#4CAF50", "#FF9800", "#9C27B0", "#F44336", "#00BCD4", "#FF5722", "#3F51B5"]

  /**
   * `generateRouteColor(index)` = `colors[index % 8]` with JavaScript's
   * truncating `%`: a negative index gives a negative remainder and no
   * colour (undefined), except a negative multiple of 8, whose remainder
   * is -0 and selects the first colour.
   */
  function RouteColor(index: int): (color: Option<string>)
    ensures index >= 0 ==> color.Some? && color.value in Palette
  {
    var rem := if index >= 0 then index % 8 else -((-index) % 8);
    if rem >= 0 then Some(Palette[rem]) else None
  }

  /** The palette repeats with period 8 ... */
  lemma RouteColorPeriodic(index: nat)
    ensures RouteColor(index + 8) == RouteColor(index)
  {
  }

  /** ... and with no shorter period: eight consecutive routes get eight different colours. */
  lemma RouteColorDistinctWithinPeriod(i: nat, j: nat)
    requires i < j < i + 8
    ensures RouteColor(i) != RouteColor(j)
  {
    assert i % 8 != j % 8;
  }

  /** A negative index has a colour only when it is a multiple of 8, and then it is the first one. */
  lemma RouteColorNegative(index: int)
    requires index < 0
    ensures RouteColor(index).Some? <==> index % 8 == 0
    ensures RouteColor(index).Some? ==> RouteColor(index) == Some(Palette[0])
  {
  }

  // ---------------------------------------------------------------------------
  // formatDistance and formatDuration
  // ---------------------------------------------------------------------------

  /** The two shapes of the distance label: `${meters}米` and `${(meters / 1000).toFixed(2)}公里`. */
  datatype DistanceLabel = Metres(meters: Number) | Kilometres(kilometres: real)

  /** `formatDistance`: kilometres from 1000 m on, the raw metre value below that (and for NaN). */
  function FormatDistance(meters: Number): (shown: DistanceLabel)
    ensures shown.Metres? <==> !(meters.Finite? && meters.val >= 1000.0)
    ensures shown.Metres? ==> shown.meters == meters
    ensures shown.Kilometres? ==> shown.kilometres >= 1.0 && shown.kilometres * 1000.0 == meters.val
  {
    if meters.Finite? && meters.val >= 1000.0 then Kilometres(meters.val / 1000.0) else Metres(meters)
  }

  const MinuteUnit: string := "分钟"
  const HourUnit: string := "小时"

  /**
   * `formatDuration`: with `m = Math.floor(seconds / 60)`, `${m}分钟` below an
   * hour, otherwise `${h}小时${r}分钟` with `r < 60` and `h·60 + r = m`.
   * NaN seconds print as `NaN小时NaN分钟` (NaN < 60 is false).
   */
  function FormatDuration(seconds: Number): (text: string)
    ensures seconds.NaN? ==> text == "NaN" + HourUnit + "NaN" + MinuteUnit
    ensures seconds.Finite? && WholeMinutes(seconds.val) < 60 ==>
              text == IntText(WholeMinutes(seconds.val)) + MinuteUnit
    ensures seconds.Finite? && WholeMinutes(seconds.val) >= 60 ==>
              exists h: nat, r: nat :: r < 60 && h * 60 + r == WholeMinutes(seconds.val) &&
                text == NatText(h) + HourUnit + NatText(r) + MinuteUnit
  {
    if seconds.NaN? then "NaN" + HourUnit + "NaN" + MinuteUnit
    else
      var minutes := WholeMinutes(seconds.val);
      if minutes < 60 then IntText(minutes) + MinuteUnit
      else NatText(minutes / 60) + HourUnit + NatText(minutes % 60) + MinuteUnit
  }

  /** Reads a duration label back into whole minutes; None when it is not one. */
  function ReadMinutes(text: string): Option<int>
  {
    if |text| < 2 || text[|text| - 2..] != MinuteUnit then None
    else
      var body := text[..|text| - 2];
      match IndexOf(body, HourUnit[0])
      case None => ReadInt(body)
      case Some(k) =>
        if k + 1 < |body| && body[k + 1] == HourUnit[1] then
          match (ReadNat(body[..k]), ReadNat(body[k + 2..]))
          case (Some(h), Some(r)) => Some(h * 60 + r)
          case _ => None
        else None
  }

  /** Removing the minute unit from a label leaves its body. */
  lemma StripMinuteUnit(body: string)
    ensures var text := body + MinuteUnit;
            |text| >= 2 && text[|text| - 2..] == MinuteUnit && text[..|text| - 2] == body
  {
  }

  lemma ReadsBackMinutes(m: int)
    ensures ReadMinutes(IntText(m) + MinuteUnit) == Some(m)
  {
    var body := IntText(m);
    StripMinuteUnit(body);
    assert HourUnit[0] !in body by {
      if m < 0 {
        assert body == "-" + NatText(-m);
      }
    }
    ReadIntText(m);
  }

  /** A body `a 小时 b` whose `a` has no `小` splits at the hour unit. */
  lemma SplitAtHourUnit(a: string, b: string)
    requires HourUnit[0] !in a
    ensures var body := a + HourUnit + b;
            && IndexOf(body, HourUnit[0]) == Some(|a|) && |a| + 1 < |body| && body[|a| + 1] == HourUnit[1]
            && body[..|a|] == a && body[|a| + 2..] == b
  {
    assert a + HourUnit + b == a + (HourUnit + b);
    IndexOfAfter(a, HourUnit + b, HourUnit[0]);
  }

  lemma ReadsBackHours(h: nat, r: nat)
    ensures ReadMinutes(NatText(h) + HourUnit + NatText(r) + MinuteUnit) == Some(h * 60 + r)
  {
    var hours, minutes := NatText(h), NatText(r);
    var body := hours + HourUnit + minutes;
    StripMinuteUnit(body);
    assert HourUnit[0] !in hours;
    SplitAtHourUnit(hours, minutes);
    ReadNatText(h);
    ReadNatText(r);
  }

  lemma ReadsBackNaN()
    ensures ReadMinutes("NaN" + HourUnit + "NaN" + MinuteUnit) == None
  {
    var body := "NaN" + HourUnit + "NaN";
    StripMinuteUnit(body);
    assert body[..3] == "NaN" && body[3] == HourUnit[0] && body[4] == HourUnit[1];
    assert ReadNat("NaN") == None;
  }

  /** A duration label denotes exactly `Math.floor(seconds / 60)` minutes; the NaN label denotes none. */
  lemma FormatDurationReadsBack(seconds: Number)
    ensures seconds.Finite? ==> ReadMinutes(FormatDuration(seconds)) == Some(WholeMinutes(seconds.val))
    ensures seconds.NaN? ==> ReadMinutes(FormatDuration(seconds)) == None
  {
    if seconds.NaN? {
      ReadsBackNaN();
    } else {
      var m := WholeMinutes(seconds.val);
      if m < 60 {
        ReadsBackMinutes(m);
      } else {
        ReadsBackHours(m / 60, m % 60);
      }
    }
  }

  // ---------------------------------------------------------------------------
  // getRouteBounds
  // ---------------------------------------------------------------------------

  /** `Math.max(...xs)` on a non-empty list: an element that bounds all others. */
  function MaxOf(xs: seq<real>): (m: real)
    requires |xs| > 0
    ensures forall i :: 0 <= i < |xs| ==> xs[i] <= m
    ensures exists i :: 0 <= i < |xs| && xs[i] == m
  {
    if |xs| == 1 then xs[0]
    else
      var rest := MaxOf(xs[1..]);
      assert forall i :: 1 <= i < |xs| ==> xs[i] == xs[1..][i - 1];
      if xs[0] >= rest then xs[0] else rest
  }

  /** `Math.min(...xs)` on a non-empty list: an element bounded by all others. */
  function MinOf(xs: seq<real>): (m: real)
    requires |xs| > 0
    ensures forall i :: 0 <= i < |xs| ==> m <= xs[i]
    ensures exists i :: 0 <= i < |xs| && xs[i] == m
  {
    if |xs| == 1 then xs[0]
    else
      var rest := MinOf(xs[1..]);
      assert forall i :: 1 <= i < |xs| ==> xs[i] == xs[1..][i - 1];
      if xs[0] <= rest then xs[0] else rest
  }

  function Latitudes(path: seq<Point>): (lats: seq<real>)
    ensures |lats| == |path| && forall i :: 0 <= i < |path| ==> lats[i] == path[i].latitude
  {
    seq(|path|, i requires 0 <= i < |path| => path[i].latitude)
  }

  function Longitudes(path: seq<Point>): (lngs: seq<real>)
    ensures |lngs| == |path| && forall i :: 0 <= i < |path| ==> lngs[i] == path[i].longitude
  {
    seq(|path|, i requires 0 <= i < |path| => path[i].longitude)
  }

  datatype Bounds = Bounds(north: real, south: real, east: real, west: real)
  datatype RouteBox = RouteBox(center: Point, bounds: Bounds)

  /** Every point of `path` lies inside `b`. */
  predicate Encloses(b: Bounds, path: seq<Point>)
  {
    forall i :: 0 <= i < |path| ==>
      b.south <= path[i].latitude <= b.north && b.west <= path[i].longitude <= b.east
  }

  /** Each side of `b` touches some point of `path`. */
  predicate Tight(b: Bounds, path: seq<Point>)
  {
    && (exists i :: 0 <= i < |path| && path[i].latitude == b.north)
    && (exists i :: 0 <= i < |path| && path[i].latitude == b.south)
    && (exists i :: 0 <= i < |path| && path[i].longitude == b.east)
    && (exists i :: 0 <= i < |path| && path[i].longitude == b.west)
  }

  /**
   * `getRouteBounds`: null for an empty path; otherwise the smallest box
   * holding every point (each side touches a point), and its centre.
   */
  function RouteBounds(path: seq<Point>): (box: Option<RouteBox>)
    ensures box.None? <==> path == []
    ensures box.Some? ==>
              var b := box.value.bounds;
              && b.south <= b.north && b.west <= b.east
              && Encloses(b, path) && Tight(b, path)
              && box.value.center == Point((b.north + b.south) / 2.0, (b.east + b.west) / 2.0)
  {
    if path == [] then None
    else
      var lats, lngs := Latitudes(path), Longitudes(path);
      var b := Bounds(MaxOf(lats), MinOf(lats), MaxOf(lngs), MinOf(lngs));
      Some(RouteBox(Point((b.north + b.south) / 2.0, (b.east + b.west) / 2.0), b))
  }

  /** The bounding box is the tightest: any box holding every point contains it. */
  lemma RouteBoundsSmallest(path: seq<Point>, other: Bounds)
    requires path != [] && Encloses(other, path)
    ensures var b := RouteBounds(path).value.bounds;
            other.south <= b.south && b.north <= other.north &&
            other.west <= b.west && b.east <= other.east
  {
    var b := RouteBounds(path).value.bounds;
    var i :| 0 <= i < |path| && path[i].latitude == b.north;
    var j :| 0 <= j < |path| && path[j].latitude == b.south;
    var k :| 0 <= k < |path| && path[k].longitude == b.east;
    var l :| 0 <= l < |path| && path[l].longitude == b.west;
  }
}

=== FILE: unified_button.dfy ===
/**
 * The colour logic of the unified button: its background colour, the
 * conversion of a CSS colour string (`#rgb`, `#rrggbb`, `rgb(…)`,
 * `rgba(…)`) into red, green and blue channels, and the choice of a dark or
 * light label from the estimated luminance of the background.
 */
module UnifiedButton {
  import opened Wrappers
  import opened JsNumber
  import opened JsText

  /** The channels `toRgb` returns; a channel is NaN when `rgb(…)` lists fewer than three values. */
  datatype Rgb = Rgb(r: Number, g: Number, b: Number)

  const DisabledBackground: string := "rgba(0,0,0,0.12)"
  const DefaultBackground: string := "#3B82F6"
  const DisabledText: string := "#888"
  const DarkText: string := "#111"
  const LightText: string := "#fff"

  /** The fallback channels when the colour is neither hex nor functional: the default blue. */
  const FallbackBlue: Rgb := Rgb(FromInt(59), FromInt(130), FromInt(246))

  // ---------------------------------------------------------------------------
  // Hexadecimal colours: parseInt(hex.slice(0, 6), 16) and the bit extraction
  // ---------------------------------------------------------------------------

  function HexDigitValue(c: char): (d: Option<nat>)
    ensures d.Some? ==> d.value < 16
  {
    if '0' <= c <= '9' then Some(c as int - '0' as int)
    else if 'a' <= c <= 'f' then Some(c as int - 'a' as int + 10)
    else if 'A' <= c <= 'F' then Some(c as int - 'A' as int + 10)
    else None
  }

  predicate IsHexDigit(c: char)
  {
    HexDigitValue(c).Some?
  }


  /** The value of a digit; 0 for any other character. */
  function DigitValue(c: char): (d: nat)
    ensures d < 16
  {
    match HexDigitValue(c)
    case Some(v) => v
    case None => 0
  }

  function Pow16(k: nat): (p: nat)
    ensures p >= 1
  {
    if k == 0 then 1 else 16 * Pow16(k - 1)
  }

  /** The value of a string of hexadecimal digits, most significant first. */
  function HexValue(z: string): (v: nat)
    ensures v < Pow16(|z|)
  {
    if z == [] then 0 else 16 * HexValue(z[..|z| - 1]) + DigitValue(z[|z| - 1])
  }

  /** The longest prefix of `s` made of hexadecimal digits. */
  function HexRun(s: string): (z: string)
    ensures |z| <= |s| && z == s[..|z|]
    ensures forall i :: 0 <= i < |z| ==> IsHexDigit(z[i])
    ensures |z| < |s| ==> !IsHexDigit(s[|z|])
  {
    if s != [] && IsHexDigit(s[0]) then
      var rest := HexRun(s[1..]);
      assert [s[0]] + rest == s[..|rest| + 1];
      [s[0]] + rest
    else []
  }

  /** Every character of `s` is a hexadecimal digit: its longest hexadecimal prefix is all of it. */
  predicate HexDigits(s: string)
  {
    HexRun(s) == s
  }

  lemma {:induction false} HexDigitsOfEach(s: string)
    requires forall i :: 0 <= i < |s| ==> IsHexDigit(s[i])
    ensures HexDigits(s)
  {
    if s != [] {
      HexDigitsOfEach(s[1..]);
    }
  }

  /**
   * `parseInt(s, 16)`: leading white space skipped, an optional sign, an
   * optional `0x`/`0X`, then the longest run of hexadecimal digits; None
   * (NaN) when that run is empty.
   */
  function ParseHexInt(s: string): (n: Option<int>)
    ensures s == [] ==> n.None?
    ensures n.Some? ==> n.value < Pow16(|s|) && -n.value < Pow16(|s|)
  {
    var t := TrimStart(s);
    var negative := t != [] && t[0] == '-';
    var unsigned := if t != [] && (t[0] == '-' || t[0] == '+') then t[1..] else t;
    var digits :=
      if |unsigned| >= 2 && unsigned[0] == '0' && (unsigned[1] == 'x' || unsigned[1] == 'X')
      then unsigned[2..] else unsigned;
    var z := HexRun(digits);
    PowMonotone(|z|, |s|);
    if z == [] then None
    else if negative then Some(0 - HexValue(z))
    else Some(HexValue(z))
  }

  /** A hexadecimal digit is neither white space, nor a sign, nor the `x` of `0x`. */
  lemma HexDigitIsPlain(c: char)
    requires IsHexDigit(c)
    ensures !IsWhiteSpace(c) && c != '-' && c != '+' && c != 'x' && c != 'X'
  {
  }

  /** The first two characters of a string of hexadecimal digits are digits. */
  lemma HexDigitsStart(s: string)
    requires s != [] && HexDigits(s)
    ensures IsHexDigit(s[0]) && (|s| >= 2 ==> IsHexDigit(s[1]))
  {
    if |s| >= 2 {
      assert HexRun(s[1..]) == s[1..];
      assert s[1..][0] == s[1];
    }
  }

  /** Text with no leading white space is left alone by `TrimStart`. */
  lemma TrimStartUnchanged(s: string)
    requires s != [] && !IsWhiteSpace(s[0])
    ensures TrimStart(s) == s
  {
  }

  /** Once the parser's prefixes are known to be absent, it reads the whole string. */
  lemma ParsePlainHex(s: string)
    requires s != [] && HexDigits(s) && TrimStart(s) == s && s[0] != '-' && s[0] != '+'
    requires !(|s| >= 2 && s[0] == '0' && (s[1] == 'x' || s[1] == 'X'))
    ensures ParseHexInt(s) == Some(HexValue(s))
  {
  }

  /** A string of hexadecimal digits parses to its value. */
  lemma ParseHexDigits(s: string)
    requires s != [] && HexDigits(s)
    ensures ParseHexInt(s) == Some(HexValue(s))
  {
    HexDigitsStart(s);
    HexDigitIsPlain(s[0]);
    if |s| >= 2 {
      HexDigitIsPlain(s[1]);
    }
    TrimStartUnchanged(s);
    ParsePlainHex(s);
  }

  lemma {:induction false} PowMonotone(j: nat, k: nat)
    requires j <= k
    ensures Pow16(j) <= Pow16(k)
  {
    if j < k {
      PowMonotone(j, k - 1);
    }
  }

  /** `x & 255` on a 32-bit integer: the low byte, never negative. */
  function LowByte(x: int): (b: Number)
    ensures b.Finite? && 0.0 <= b.val <= 255.0 && b.val == b.val.Floor as real
    ensures (x - b.val.Floor) % 256 == 0
  {
    FromInt(x % 256)
  }

  /**
   * `{ r: (num >> 16) & 255, g: (num >> 8) & 255, b: num & 255 }`. NaN
   * becomes 0 under the bitwise operators, and `>>` is an arithmetic shift,
   * i.e. a floor division by a power of two, of the operand's 32-bit
   * conversion.
   */
  function HexChannels(num: Option<int>): (c: Rgb)
    ensures num.None? ==> c == Rgb(FromInt(0), FromInt(0), FromInt(0))
    ensures c.r.Finite? && 0.0 <= c.r.val <= 255.0 && c.r.val == c.r.val.Floor as real
    ensures c.g.Finite? && 0.0 <= c.g.val <= 255.0 && c.g.val == c.g.val.Floor as real
    ensures c.b.Finite? && 0.0 <= c.b.val <= 255.0 && c.b.val == c.b.val.Floor as real
    ensures num.Some? ==>
              var v := ToInt32(num.value);
              && (v / 0x1_0000 - c.r.val.Floor) % 256 == 0
              && (v / 0x100 - c.g.val.Floor) % 256 == 0
              && (v - c.b.val.Floor) % 256 == 0
  {
    var v := if num.None? then 0 else ToInt32(num.value);
    Rgb(LowByte(v / 0x1_0000), LowByte(v / 0x100), LowByte(v))
  }

  /** `hex.split('').map((ch) => ch + ch).join('')`: every character written twice. */
  function Doubled(hex: string): (d: string)
    ensures |d| == 2 * |hex|
    ensures forall i :: 0 <= i < |hex| ==> d[2 * i] == hex[i] && d[2 * i + 1] == hex[i]
  {
    if hex == [] then [] else [hex[0], hex[0]] + Doubled(hex[1..])
  }

  // ---------------------------------------------------------------------------
  // Functional colours: /rgba?\(([^)]+)\)/i and the split of the captured list
  // ---------------------------------------------------------------------------

  /** Case-insensitive comparison with a lower-case ASCII letter. */
  predicate IsLetter(c: char, lower: char)
    requires 'a' <= lower <= 'z'
  {
    c == lower || c as int == lower as int - 32
  }

  /** The pattern matched at the start of `s`: its capture, the text between `(` and the first `)`. */
  function MatchHere(s: string): (capture: Option<string>)
    ensures capture.Some? ==> capture.value != [] && ')' !in capture.value
    ensures capture.Some? ==>
              && |s| >= 3 && IsLetter(s[0], 'r') && IsLetter(s[1], 'g') && IsLetter(s[2], 'b')
              && var open := if |s| >= 4 && IsLetter(s[3], 'a') then 4 else 3;
                 var close := open + 1 + |capture.value|;
                 && close < |s| && s[open] == '(' && s[open + 1..close] == capture.value && s[close] == ')'
  {
    if |s| >= 3 && IsLetter(s[0], 'r') && IsLetter(s[1], 'g') && IsLetter(s[2], 'b') then
      var rest := if |s| >= 4 && IsLetter(s[3], 'a') then s[4..] else s[3..];
      if rest != [] && rest[0] == '(' then
        match IndexOf(rest[1..], ')')
        case None => None
        case Some(k) => if k == 0 then None else Some(rest[1..][..k])
      else None
    else None
  }

  /** The first match starting at or after `p`. */
  function MatchFrom(s: string, p: nat): (capture: Option<string>)
    requires p <= |s|
    ensures capture.Some? ==> capture.value != [] && ')' !in capture.value
    decreases |s| - p
  {
    if p == |s| then None
    else if MatchHere(s[p..]).Some? then MatchHere(s[p..])
    else MatchFrom(s, p + 1)
  }

  /** `s.match(/rgba?\(([^)]+)\)/i)`: the capture of the leftmost match. */
  function RgbaMatch(s: string): (capture: Option<string>)
    ensures capture.Some? ==> capture.value != [] && ')' !in capture.value
  {
    MatchFrom(s, 0)
  }

  /**
   * The search finds nothing exactly when no position at or after `p`
   * matches, and otherwise the capture of the first position that does.
   */
  lemma {:induction false} MatchFromLeftmost(s: string, p: nat)
    requires p <= |s|
    ensures MatchFrom(s, p).None? <==> forall q :: p <= q <= |s| ==> MatchHere(s[q..]).None?
    ensures MatchFrom(s, p).Some? ==>
              exists q :: (p <= q < |s| && MatchHere(s[q..]) == MatchFrom(s, p) &&
                forall r :: p <= r < q ==> MatchHere(s[r..]).None?)
    decreases |s| - p
  {
    if p == |s| {
      assert s[p..] == [];
    } else if MatchHere(s[p..]).None? {
      MatchFromLeftmost(s, p + 1);
      if MatchFrom(s, p).Some? {
        var q :| p + 1 <= q < |s| && MatchHere(s[q..]) == MatchFrom(s, p + 1) &&
                 forall r :: p + 1 <= r < q ==> MatchHere(s[r..]).None?;
        assert forall r :: p <= r < q ==> MatchHere(s[r..]).None?;
      }
    }
  }

  /** `RgbaMatch` is the leftmost match of the pattern, and finds one whenever some position matches. */
  lemma RgbaMatchLeftmost(s: string)
    ensures RgbaMatch(s).None? <==> forall q :: 0 <= q <= |s| ==> MatchHere(s[q..]).None?
    ensures RgbaMatch(s).Some? ==>
              exists q :: (0 <= q < |s| && MatchHere(s[q..]) == RgbaMatch(s) &&
                forall r :: 0 <= r < q ==> MatchHere(s[r..]).None?)
  {
    MatchFromLeftmost(s, 0);
  }

  /**
   * `clamp255`: NaN becomes 0, a number is rounded and clamped to 0..255.
   * A missing list element (undefined) gives NaN: `Number.isNaN(undefined)`
   * is false and `Math.round(undefined)` is NaN.
   */
  function Clamp255(n: Option<Number>): (c: Number)
    ensures n.None? <==> c.NaN?
    ensures n.Some? ==> 0.0 <= c.val <= 255.0 && c.val == c.val.Floor as real
    ensures n == Some(NaN) ==> c == FromInt(0)
    ensures n.Some? && n.value.Finite? && -0.5 <= n.value.val < 255.5 ==>
              c.val - 0.5 <= n.value.val < c.val + 0.5
    ensures n.Some? && n.value.Finite? && n.value.val < -0.5 ==> c == FromInt(0)
    ensures n.Some? && n.value.Finite? && n.value.val >= 254.5 ==> c == FromInt(255)
  {
    match n
    case None => NaN
    case Some(NaN) => FromInt(0)
    case Some(Finite(x)) =>
      var rounded := Round(x);
      FromInt(if rounded < 0 then 0 else if rounded > 255 then 255 else rounded)
  }

  /** Clamping an already clamped channel changes nothing. */
  lemma Clamp255Idempotent(n: Option<Number>)
    requires n.Some?
    ensures Clamp255(Some(Clamp255(n))) == Clamp255(n)
  {
    var c := Clamp255(n);
    assert Round(c.val) == c.val.Floor;
  }

  /** The list element at `i`, absent (undefined) past the end. */
  function Component(parts: seq<string>, i: nat, parseFloat: string -> Number): (v: Option<Number>)
    ensures v.Some? <==> i < |parts|
    ensures v.Some? ==> v.value == parseFloat(Trim(parts[i]))
  {
    if i < |parts| then Some(parseFloat(Trim(parts[i]))) else None
  }

  /**
   * The hexadecimal branch of `toRgb` on the text after `#`: three
   * characters are doubled, then at most the first six are parsed.
   */
  function HexColor(hex: string): (c: Rgb)
    ensures c.r.Finite? && c.g.Finite? && c.b.Finite?
    ensures 0.0 <= c.r.val <= 255.0 && 0.0 <= c.g.val <= 255.0 && 0.0 <= c.b.val <= 255.0
  {
    var digits := if |hex| == 3 then Doubled(hex) else hex;
    var slice := if |digits| >= 6 then digits[..6] else digits;
    PowMonotone(|slice|, 6);
    HexChannels(ParseHexInt(slice))
  }

  /** The functional branch of `toRgb` on the captured list: the first three elements, clamped. */
  function ListColor(list: string, parseFloat: string -> Number): (c: Rgb)
    ensures c.b.NaN? <==> Occurrences(list, ',') < 2
    ensures c.r.Finite? && 0.0 <= c.r.val <= 255.0
    ensures var parts := Split(list, ',');
            && c.r == Clamp255(Some(parseFloat(Trim(parts[0]))))
            && c.g == (if Occurrences(list, ',') >= 1 then Clamp255(Some(parseFloat(Trim(parts[1])))) else NaN)
            && c.b == (if Occurrences(list, ',') >= 2 then Clamp255(Some(parseFloat(Trim(parts[2])))) else NaN)
  {
    var parts := Split(list, ',');
    Rgb(Clamp255(Component(parts, 0, parseFloat)),
        Clamp255(Component(parts, 1, parseFloat)),
        Clamp255(Component(parts, 2, parseFloat)))
  }

  /**
   * `toRgb`: a trimmed colour starting with `#` is read as hexadecimal;
   * otherwise the comma separated list inside `rgb(…)`/`rgba(…)` gives the
   * channels; otherwise the default blue. `parseFloat` stands for the
   * JavaScript function of that name.
   */
  function ToRgb(input: string, parseFloat: string -> Number): (c: Rgb)
    ensures var s := Trim(input);
            s != [] && s[0] == '#' ==> c == HexColor(s[1..])
    ensures var s := Trim(input);
            !(s != [] && s[0] == '#') && RgbaMatch(s).Some? ==> c == ListColor(RgbaMatch(s).value, parseFloat)
    ensures var s := Trim(input);
            !(s != [] && s[0] == '#') && RgbaMatch(s).None? ==> c == FallbackBlue
  {
    var s := Trim(input);
    if s != [] && s[0] == '#' then HexColor(s[1..])
    else
      match RgbaMatch(s)
      case Some(list) => ListColor(list, parseFloat)
      case None => FallbackBlue
  }

  // ---------------------------------------------------------------------------
  // Background and label colour
  // ---------------------------------------------------------------------------

  /** `bg`: a translucent grey when disabled, else the given colour or the default blue. */
  function Background(disabled: bool, color: Option<string>): (bg: string)
    ensures disabled ==> bg == DisabledBackground
    ensures !disabled && color.Some? ==> bg == color.value
    ensures !disabled && color.None? ==> bg == DefaultBackground
  {
    if disabled then DisabledBackground
    else match color
      case Some(c) => c
      case None => DefaultBackground
  }

  /** `lum > 0.7` with `lum = (0.299 r + 0.587 g + 0.114 b) / 255`; false when a channel is NaN. */
  function IsLight(c: Rgb): (light: bool)
    ensures light <==>
              && c.r.Finite? && c.g.Finite? && c.b.Finite?
              && 299.0 * c.r.val + 587.0 * c.g.val + 114.0 * c.b.val > 178500.0
  {
    c.r.Finite? && c.g.Finite? && c.b.Finite? &&
    (0.299 * c.r.val + 0.587 * c.g.val + 0.114 * c.b.val) / 255.0 > 0.7
  }

  /**
   * `textColor`: grey when disabled; otherwise dark text on a light
   * background and white text on a dark one. `toRgb` cannot throw on a
   * string, so the `catch` branch (white text) is never taken.
   */
  function TextColor(disabled: bool, color: Option<string>, parseFloat: string -> Number): (text: string)
    ensures disabled ==> text == DisabledText
    ensures !disabled ==> text == DarkText || text == LightText
    ensures !disabled ==> (text == DarkText <==> IsLight(ToRgb(Background(false, color), parseFloat)))
  {
    if disabled then DisabledText
    else if IsLight(ToRgb(Background(disabled, color), parseFloat)) then DarkText
    else LightText
  }

  // ---------------------------------------------------------------------------
  // Properties
  // ---------------------------------------------------------------------------

  /** A string whose ends are not white space is its own trim. */
  lemma TrimUnchanged(s: string)
    requires s != [] && !IsWhiteSpace(s[0]) && !IsWhiteSpace(s[|s| - 1])
    ensures Trim(s) == s
  {
  }

  /** `#` followed by text ending in a non-space is read by the hexadecimal branch. */
  lemma HashIsHex(hex: string, parseFloat: string -> Number)
    requires hex != [] && !IsWhiteSpace(hex[|hex| - 1])
    ensures ToRgb("#" + hex, parseFloat) == HexColor(hex)
  {
    TrimUnchanged("#" + hex);
    assert ("#" + hex)[1..] == hex;
  }

  /** The byte written by two hexadecimal digits. */
  function HexByte(hi: char, lo: char): (b: nat)
    ensures b < 256
  {
    16 * DigitValue(hi) + DigitValue(lo)
  }

  /** Appending a digit multiplies the value by 16 and adds the digit. */
  lemma HexValueSnoc(z: string, k: nat)
    requires k < |z|
    ensures HexValue(z[..k + 1]) == 16 * HexValue(z[..k]) + DigitValue(z[k])
  {
    assert z[..k + 1][..k] == z[..k];
  }

  /** The value of six hexadecimal digits, pair by pair. */
  lemma SixDigitValue(h: string)
    requires |h| == 6
    ensures HexValue(h) == HexByte(h[0], h[1]) * 0x1_0000 + HexByte(h[2], h[3]) * 0x100 + HexByte(h[4], h[5])
  {
    HexValueSnoc(h, 0);
    HexValueSnoc(h, 1);
    HexValueSnoc(h, 2);
    HexValueSnoc(h, 3);
    HexValueSnoc(h, 4);
    HexValueSnoc(h, 5);
    assert h[..0] == [] && h[..6] == h;
  }

  /** A 24-bit value splits into its three bytes. */
  lemma ChannelsOfBytes(hi: nat, mid: nat, lo: nat)
    requires hi < 256 && mid < 256 && lo < 256
    ensures HexChannels(Some(hi * 0x1_0000 + mid * 0x100 + lo)) == Rgb(FromInt(hi), FromInt(mid), FromInt(lo))
  {
    var v := hi * 0x1_0000 + mid * 0x100 + lo;
    var upper := hi * 0x100 + mid;
    assert v == upper * 0x100 + lo;
    assert v / 0x100 == upper;
    assert v % 256 == lo;
    assert upper / 0x100 == hi && upper % 256 == mid;
    assert v / 0x1_0000 == hi;
    assert hi % 256 == hi;
  }

  /** Text of six characters is parsed whole. */
  lemma HexColorOfSix(h: string)
    requires |h| == 6
    ensures HexColor(h) == HexChannels(ParseHexInt(h))
  {
    assert h[..6] == h;
  }

  /** The value of six hexadecimal digits splits into the bytes of their three pairs. */
  lemma ChannelsOfSixDigitValue(h: string)
    requires |h| == 6
    ensures HexChannels(Some(HexValue(h)))
              == Rgb(FromInt(HexByte(h[0], h[1])), FromInt(HexByte(h[2], h[3])), FromInt(HexByte(h[4], h[5])))
  {
    SixDigitValue(h);
    ChannelsOfBytes(HexByte(h[0], h[1]), HexByte(h[2], h[3]), HexByte(h[4], h[5]));
  }

  /** Six hexadecimal digits give the channels written by their three pairs. */
  lemma SixDigitChannels(h: string)
    requires |h| == 6 && HexDigits(h)
    ensures HexColor(h) == Rgb(FromInt(HexByte(h[0], h[1])), FromInt(HexByte(h[2], h[3])), FromInt(HexByte(h[4], h[5])))
  {
    HexColorOfSix(h);
    ParseHexDigits(h);
    ChannelsOfSixDigitValue(h);
  }

  lemma DoubledThree(x: char, y: char, z: char)
    ensures Doubled([x, y, z]) == [x, x, y, y, z, z]
  {
    assert [x, y, z][1..] == [y, z] && [y, z][1..] == [z] && [z][1..] == [];
    assert Doubled([z]) == [z, z];
    assert Doubled([y, z]) == [y, y, z, z];
  }

  /** Three characters after `#` are read as their doubling. */
  lemma HexColorShorthand(x: char, y: char, z: char)
    ensures HexColor([x, y, z]) == HexColor([x, x, y, y, z, z])
  {
    DoubledThree(x, y, z);
  }

  /** A three-character colour is its six-character expansion: `#abc` is `#aabbcc`. */
  lemma ShorthandExpands(x: char, y: char, z: char, parseFloat: string -> Number)
    requires !IsWhiteSpace(z)
    ensures ToRgb("#" + [x, y, z], parseFloat) == ToRgb("#" + [x, x, y, y, z, z], parseFloat)
  {
    HexColorShorthand(x, y, z);
    HashIsHex([x, y, z], parseFloat);
    HashIsHex([x, x, y, y, z, z], parseFloat);
  }

  /** Only the first six characters of the text after `#` are parsed. */
  lemma HexColorIgnoresRest(h: string, rest: string)
    requires |h| == 6
    ensures HexColor(h + rest) == HexColor(h)
  {
    assert (h + rest)[..6] == h && h[..6] == h;
  }

  /** Trimming `#` + `h` + `tail` only trims the tail when `h` ends in a non-space. */
  lemma TrimAfterHex(h: string, tail: string)
    requires |h| == 6 && !IsWhiteSpace(h[5])
    ensures Trim("#" + h + tail) == "#" + (h + TrimEnd(tail))
  {
    var x := "#" + h;
    assert x[0] == '#' && x[|x| - 1] == h[5];
    TrimAfterHash(x, tail);
    ConcatAssoc("#", h, TrimEnd(tail));
  }

  /** Regrouping three appended strings (a generic step that keeps the lemma above cheap to check). */
  lemma ConcatAssoc(a: string, b: string, c: string)
    ensures a + b + c == a + (b + c)
  {
  }

  /** Text starting with `#` and ending its head `x` with a non-space is trimmed at the tail only. */
  lemma TrimAfterHash(x: string, tail: string)
    requires x != [] && x[0] == '#' && !IsWhiteSpace(x[|x| - 1])
    ensures Trim(x + tail) == x + TrimEnd(tail)
  {
    var s := x + tail;
    assert s[0] == '#';
    TrimStartUnchanged(s);
    TrimEndAfter(x, tail);
  }

  /** Only the first six characters after `#` count: anything after them is ignored. */
  lemma TrailingTextIgnored(h: string, tail: string, parseFloat: string -> Number)
    requires |h| == 6 && !IsWhiteSpace(h[5])
    ensures ToRgb("#" + h + tail, parseFloat) == ToRgb("#" + h, parseFloat)
  {
    TrimAfterHex(h, tail);
    assert ("#" + (h + TrimEnd(tail)))[1..] == h + TrimEnd(tail);
    HexColorIgnoresRest(h, TrimEnd(tail));
    HashIsHex(h, parseFloat);
  }

  /** Six hexadecimal digit characters give the channels written by their three pairs. */
  lemma SixCharChannels(c0: char, c1: char, c2: char, c3: char, c4: char, c5: char)
    requires IsHexDigit(c0) && IsHexDigit(c1) && IsHexDigit(c2) && IsHexDigit(c3) && IsHexDigit(c4) && IsHexDigit(c5)
    ensures HexColor([c0, c1, c2, c3, c4, c5])
              == Rgb(FromInt(HexByte(c0, c1)), FromInt(HexByte(c2, c3)), FromInt(HexByte(c4, c5)))
  {
    var h := [c0, c1, c2, c3, c4, c5];
    HexDigitsOfEach(h);
    SixDigitChannels(h);
  }

  /** `3B82F6` gives the channels 59, 130 and 246. */
  lemma DefaultBlueHex()
    ensures HexColor("3B82F6") == FallbackBlue
  {
    SixCharChannels('3', 'B', '8', '2', 'F', '6');
  }

  /** The default background `#3B82F6` has the channels 59, 130 and 246. */
  lemma DefaultBlueChannels(parseFloat: string -> Number)
    ensures ToRgb(DefaultBackground, parseFloat) == FallbackBlue
  {
    assert DefaultBackground == "#" + "3B82F6";
    HashIsHex("3B82F6", parseFloat);
    DefaultBlueHex();
  }

  /** A colour that is neither hexadecimal nor functional is read as the default blue. */
  lemma FallbackIsDefaultBlue(input: string, parseFloat: string -> Number)
    requires var s := Trim(input); !(s != [] && s[0] == '#') && RgbaMatch(s).None?
    ensures ToRgb(input, parseFloat) == ToRgb(DefaultBackground, parseFloat)
  {
    DefaultBlueChannels(parseFloat);
  }

  /** After `(`, a list without `)` followed by `)` is the capture. */
  lemma CaptureUpToParen(list: string, tail: string)
    requires list != [] && ')' !in list
    ensures var rest := "(" + list + ")" + tail;
            rest != [] && rest[0] == '(' && IndexOf(rest[1..], ')') == Some(|list|) && rest[1..][..|list|] == list
  {
    var rest := "(" + list + ")" + tail;
    assert rest[1..] == list + (")" + tail);
    IndexOfAfter(list, ")" + tail, ')');
  }

  /** The pattern matches at the start of `rgb(list)…` and `rgba(list)…`. */
  lemma MatchHereFunctional(alpha: bool, list: string, tail: string)
    requires list != [] && ')' !in list
    ensures MatchHere((if alpha then "rgba" else "rgb") + ("(" + list + ")" + tail)) == Some(list)
  {
    CaptureUpToParen(list, tail);
    var rest := "(" + list + ")" + tail;
    var s := (if alpha then "rgba" else "rgb") + rest;
    assert (if alpha then s[4..] else s[3..]) == rest;
  }

  /** `rgb(` or `rgba(` followed by a list without `)` and then `)` is matched at once, capturing the list. */
  lemma FunctionalSyntaxCaptured(alpha: bool, list: string, tail: string)
    requires list != [] && ')' !in list
    ensures RgbaMatch((if alpha then "rgba(" else "rgb(") + list + ")" + tail) == Some(list)
  {
    MatchHereFunctional(alpha, list, tail);
    var s := (if alpha then "rgba(" else "rgb(") + list + ")" + tail;
    assert s == (if alpha then "rgba" else "rgb") + ("(" + list + ")" + tail);
    assert s[0..] == s;
  }

  /**
   * The channels of `rgb(a, b, c)`: each list element is trimmed, read by
   * `parseFloat` and clamped; an element the list lacks gives a NaN channel.
   */
  lemma FunctionalChannels(list: string, parseFloat: string -> Number)
    requires list != [] && ')' !in list
    ensures ToRgb("rgb(" + list + ")", parseFloat) == ListColor(list, parseFloat)
  {
    var s := "rgb(" + list + ")";
    TrimUnchanged(s);
    assert s == "rgb(" + list + ")" + "";
    FunctionalSyntaxCaptured(false, list, "");
  }

  /** `rgb(…)` with fewer than three values leaves the blue channel NaN, which reads as a dark background. */
  lemma ShortListGivesLightText(list: string, parseFloat: string -> Number)
    requires list != [] && ')' !in list && Occurrences(list, ',') < 2
    ensures TextColor(false, Some("rgb(" + list + ")"), parseFloat) == LightText
  {
    FunctionalChannels(list, parseFloat);
  }

  /** The default blue button has white text. */
  lemma DefaultButtonHasLightText(parseFloat: string -> Number)
    ensures TextColor(false, None, parseFloat) == LightText
  {
    DefaultBlueChannels(parseFloat);
  }

  const White: Rgb := Rgb(FromInt(255), FromInt(255), FromInt(255))
  const Black: Rgb := Rgb(FromInt(0), FromInt(0), FromInt(0))

  lemma WhiteHex()
    ensures HexColor("ffffff") == White
  {
    SixCharChannels('f', 'f', 'f', 'f', 'f', 'f');
  }

  lemma BlackHex()
    ensures HexColor("000000") == Black
  {
    SixCharChannels('0', '0', '0', '0', '0', '0');
  }

  /** `#fff` is white ... */
  lemma WhiteShorthand(parseFloat: string -> Number)
    ensures ToRgb("#fff", parseFloat) == White
  {
    assert "#fff" == "#" + ['f', 'f', 'f'];
    ShorthandExpands('f', 'f', 'f', parseFloat);
    HashIsHex("ffffff", parseFloat);
    WhiteHex();
  }

  /** ... and `#000` is black. */
  lemma BlackShorthand(parseFloat: string -> Number)
    ensures ToRgb("#000", parseFloat) == Black
  {
    assert "#000" == "#" + ['0', '0', '0'];
    ShorthandExpands('0', '0', '0', parseFloat);
    HashIsHex("000000", parseFloat);
    BlackHex();
  }

  /** A white button (`#fff`) has dark text; a black one (`#000`) has white text. */
  lemma WhiteAndBlackText(parseFloat: string -> Number)
    ensures TextColor(false, Some("#fff"), parseFloat) == DarkText
    ensures TextColor(false, Some("#000"), parseFloat) == LightText
  {
    WhiteShorthand(parseFloat);
    BlackShorthand(parseFloat);
  }
}

=== FILE: wrappers.dfy ===
/** The optional value used for JavaScript's `undefined`/`null` results and absent fields. */
module Wrappers {

  datatype Option<+T> = None | Some(value: T)
}
